=== FILE: README.md ===
# Polynomial line search (NOX), modelled in Dafny

This project models the polynomial line search `NOX::LineSearch::Polynomial`
of the NOX nonlinear solver package. Given the current iterate `x_old` and a
search direction `d`, the line search chooses a step `λ` for
`x_new = x_old + λ d`. It tries the "Default Step" `λ_0` first. While the
trial is rejected, it minimizes a polynomial model of the merit function
`φ(λ)` ("Quadratic", "Cubic" or "Quadratic3"), clamps the minimizer into
`[γ_min λ_{k-1}, γ_max λ_{k-1}]` and tries again. It stops when:

- a trial passes the acceptance test (`checkConvergence`), or
- it runs out of "Max Iters", or
- a computed step falls below "Minimum Step".

On failure it returns the recovery step. Each call updates the line-search
counters.

The modules are:

- `Config` (config.dfy): the configuration as a validated immutable record,
  with its defaults.
- `Vectors` (vectors.dfy): `x + λ d` over `seq<real>`.
- `Acceptance` (acceptance.dfy): `checkConvergence` and `computeValue`.
- `Interpolation` (interpolation.dfy): the step formulas, the bounds clamp and
  the dispatch on "Interpolation Type". Each formula states the
  division-free relation its result satisfies. Separate lemmas show that any
  number satisfying that relation is the vertex (for "Quadratic" and
  "Quadratic3") or a critical point with non-negative curvature (for
  "Cubic") of the polynomial that interpolates the samples.
- `Search` (search.dfy): the inner iterations of one call as a recursive
  function (`Search.Run`). It returns why the search stopped, the last
  step computed, the inner-iteration count and the sequence of trial steps.
  The lemmas about the whole search are proved on this function.
- `Driver` (driver.dfy): the line-search object as a class. It holds the
  configuration, the counters object, and the collaborators (merit function,
  norm, slope utility, square root) as constants. `Compute` is the
  imperative loop that rewrites the new group in place. It is proved to
  return what `Search.Run` specifies and to update the counters as the
  documentation describes.

The model follows the documentation and declarations of the header
`NOX_LineSearch_Polynomial.H`. The implementation file
`NOX_LineSearch_Polynomial.C` is not modelled. Where the header leaves a
choice open, the model makes these decisions:

- **Rule 2 of `checkConvergence`.** The relative-increase override applies
  only when increases are allowed at all, that is when
  `maxIncreaseIter > 0` (`doAllowIncrease`, lines 504-515). The summary of
  the rule at lines 319-329 does not mention this condition. The parameter
  list at lines 225-227 reads otherwise: it calls the value the maximum
  nonlinear iteration index for which an increase is allowed, so its
  default 0 would allow an increase at nonlinear iteration 0. The model
  follows `doAllowIncrease`, so the default allows no increase at all.
- **Ratio with a zero `oldValue`.** `newValue / oldValue` is evaluated as
  double arithmetic would evaluate it: the ratio is below a finite bound
  exactly when `newValue < 0`.
- **Inner-iteration numbering.** The default step is inner iteration 1
  (lines 316-317). How "Max Iters" bounds the count departs from the
  header; see `Search.Iterate` under "## Left out".
- **Degenerate formulas.** These produce no step:
  - a quadratic formula whose denominator is zero;
  - a cubic whose leading coefficient `a` is zero or whose discriminant is
    negative;
  - a cubic whose two previous steps are equal or include a zero step, since
    its fit divides by `λ_{k-1} - λ_{k-2}` and by both steps. A valid
    configuration with γ_min = γ_max = 1 reaches this at the second
    refinement, where the search stops (`Interpolation.ScenarioCubicEqualSteps`,
    `Search.ScenarioFixedBoundsFail`).

  The search then stops as failed and the recovery step is used.
- **Recovery.** On failure the new group is set to `x_old + λ d` at the
  returned step, under both recovery step types. Under "Last Computed Step"
  the returned step is the last step computed. That can be a step rejected
  for being below "Minimum Step".
- **Counters.** A search is "non-trivial" when its default step is not
  accepted as it stands (lines 254-257).

## Model

| member | source | states |
|---|---|---|
| `Config.Defaults` | packages/nox/src/NOX_LineSearch_Polynomial.H:160-231 | The default configuration is valid, uses the default step as recovery step, never allows increases, does not force interpolation, and has bounds factors 0 < γ_min <= γ_max < 1. |
| `Acceptance.IncreaseAllowed` | packages/nox/src/NOX_LineSearch_Polynomial.H:319-329 | Definition of the "Relative Increase" override: increases are allowed at all (`maxIncreaseIter > 0`, lines 509-511), the nonlinear iteration is at most "Maximum Iteration for Increase", and the ratio newValue / oldValue is below "Allowed Relative Increase", which for a zero oldValue means `newValue < 0`. |
| `Acceptance.CheckConvergence` | packages/nox/src/NOX_LineSearch_Polynomial.H:311-389 | The three rules in order. Forced interpolation rejects inner iteration 1 whatever the values are. Otherwise an allowed relative increase is accepted, including the zero-`oldValue` case, where the ratio is below the bound exactly when `newValue < 0`. Otherwise Armijo-Goldstein accepts iff `newValue <= oldValue + α λ φ'(0)`, Ared/Pred accepts iff `newValue <= oldValue (1 - α (1 - η))`, and None always accepts. |
| `Acceptance.ComputeValue` | packages/nox/src/NOX_LineSearch_Polynomial.H:412-425 | The decrease measure is the norm of the state under Ared/Pred and the merit value φ otherwise. |
| `Acceptance.AcceptanceMonotone` | packages/nox/src/NOX_LineSearch_Polynomial.H:331-352 | Over non-negative measures, a state whose measure is no larger than that of an accepted state is accepted too, under every rule. |
| `Acceptance.DefaultsNeverAllowIncrease` | packages/nox/src/NOX_LineSearch_Polynomial.H:504-511 | With the defaults ("Maximum Iteration for Increase" = 0), acceptance is exactly the Armijo-Goldstein test with α = 1e-4, for every value and iteration index. |
| `Acceptance.ScenarioDefaultStepAccepted` | packages/nox/src/NOX_LineSearch_Polynomial.H:337-340 | φ(0) = 10, φ'(0) = -2: under the defaults, φ(1) = 9 is accepted. |
| `Acceptance.ScenarioDefaultStepRejected` | packages/nox/src/NOX_LineSearch_Polynomial.H:337-340 | φ(1) = 11 is rejected. |
| `Vectors.Axpy` | packages/nox/src/NOX_LineSearch_Polynomial.H:391-409 | `x_new[i] = x_old[i] + λ d[i]` for every component, with the same length. |
| `Vectors.AxpyZero` | packages/nox/src/NOX_LineSearch_Polynomial.H:400-404 | A zero step leaves the iterate unchanged. |
| `Vectors.AxpyInverse` | packages/nox/src/NOX_LineSearch_Polynomial.H:400-404 | Stepping by `-λ` along `d` undoes a step by `λ`. |
| `Interpolation.Curvature` | packages/nox/src/NOX_LineSearch_Polynomial.H:111-114 | `c λ_{k-1}^2` equals the sample's excess `φ(λ_{k-1}) - φ(0) - φ'(0) λ_{k-1}`. |
| `Interpolation.QuadraticStep` | packages/nox/src/NOX_LineSearch_Polynomial.H:89-94 | Defined iff the bracket `φ(λ_{k-1}) - φ(0) - φ'(0) λ_{k-1}` is nonzero. Then `2 [bracket] λ_k = -φ'(0) λ_{k-1}^2`. |
| `Interpolation.QuadraticModelVertex` | packages/nox/src/NOX_LineSearch_Polynomial.H:76-94 | The quadratic that matches φ(0), φ'(0) and φ(λ_{k-1}) has zero slope at every step satisfying the quadratic formula's relation. When it is convex, that step is its global minimizer. |
| `Interpolation.QuadraticStepIsVertex` | packages/nox/src/NOX_LineSearch_Polynomial.H:89-94 | The quadratic step is the vertex of the quadratic model built from `Curvature`. |
| `Interpolation.Quadratic3Step` | packages/nox/src/NOX_LineSearch_Polynomial.H:117-128 | Defined iff the denominator is nonzero. Then `2 · denominator · λ_k = -numerator`. |
| `Interpolation.Quadratic3ModelVertex` | packages/nox/src/NOX_LineSearch_Polynomial.H:117-128 | Any quadratic through (0, φ(0)), (λ_{k-1}, φ(λ_{k-1})) and (λ_{k-2}, φ(λ_{k-2})) with distinct nonzero steps has zero slope at every step satisfying the "Quadratic3" relation. When it is convex, that step is its global minimizer. |
| `Interpolation.Quadratic3Solves` | packages/nox/src/NOX_LineSearch_Polynomial.H:117-128 | The coefficients of a quadratic through both samples solve the 2x2 system behind the formula. |
| `Interpolation.Quadratic3B` | packages/nox/src/NOX_LineSearch_Polynomial.H:117-128 | The linear coefficient of the three-point quadratic satisfies the system with determinant `λ_{k-1} λ_{k-2} (λ_{k-1} - λ_{k-2})`. |
| `Interpolation.Quadratic3C` | packages/nox/src/NOX_LineSearch_Polynomial.H:117-128 | The quadratic coefficient of the three-point quadratic satisfies the same system. |
| `Interpolation.Quadratic3ModelInterpolates` | packages/nox/src/NOX_LineSearch_Polynomial.H:117-120 | The quadratic built from `Quadratic3B` and `Quadratic3C` passes through both samples, so such a model always exists. |
| `Interpolation.ThreePointFit` | packages/nox/src/NOX_LineSearch_Polynomial.H:117-120 | A solution of the 2x2 system matches both samples. |
| `Interpolation.CubicA` | packages/nox/src/NOX_LineSearch_Polynomial.H:103-115 | `a (λ_{k-1} - λ_{k-2})` is the difference of the two samples' curvatures, as in the first row of the matrix formula. |
| `Interpolation.CubicB` | packages/nox/src/NOX_LineSearch_Polynomial.H:103-115 | `b (λ_{k-1} - λ_{k-2}) = λ_{k-1} t_2 - λ_{k-2} t_1`, as in the second row. |
| `Interpolation.CubicModelInterpolates` | packages/nox/src/NOX_LineSearch_Polynomial.H:96-115 | The cubic `φ(0) + φ'(0) λ + b λ^2 + a λ^3` with these coefficients matches φ(0), φ(λ_{k-1}) and φ(λ_{k-2}). |
| `Interpolation.CubicFit` | packages/nox/src/NOX_LineSearch_Polynomial.H:103-115 | Any (a, b) satisfying the two relations makes the cubic match both samples. |
| `Interpolation.CubicStep` | packages/nox/src/NOX_LineSearch_Polynomial.H:99-101 | Defined iff `a != 0` and `b^2 - 3 a φ'(0) >= 0`. Then `3 a λ_k = -b + sqrt(b^2 - 3 a φ'(0))`. |
| `Interpolation.CubicModelCritical` | packages/nox/src/NOX_LineSearch_Polynomial.H:96-101 | With a non-negative square root `q`, every step satisfying the cubic relation is a critical point of the cubic model, where the model's second derivative equals `2q`. It is a local minimizer when the discriminant is positive and an inflection point when it is zero. |
| `Interpolation.CubicDegenerateOnQuadratic` | packages/nox/src/NOX_LineSearch_Polynomial.H:96-115 | When the merit is exactly quadratic along the direction, any two distinct non-zero samples give `a = 0`, and the cubic formula yields no step. |
| `Interpolation.Clamp` | packages/nox/src/NOX_LineSearch_Polynomial.H:135-146 | With γ_min λ_{k-1} <= γ_max λ_{k-1}, the result lies in that interval. A step already inside is unchanged. A step below or above is moved to the violated bound. |
| `Interpolation.ClampIsNearest` | packages/nox/src/NOX_LineSearch_Polynomial.H:137-142 | Of all steps within the bounds, the clamped one is nearest to the predicted step. |
| `Interpolation.Predict` | packages/nox/src/NOX_LineSearch_Polynomial.H:89-128 | Dispatch on "Interpolation Type". "Quadratic3" gives `λ_1 = λ_0 / 2`. "Quadratic" always uses the quadratic formula, and "Cubic" uses it for `λ_1`. "Quadratic3" and "Cubic" use their own formulas for k >= 2. |
| `Interpolation.ScenarioCubicEqualSteps` | packages/nox/src/NOX_LineSearch_Polynomial.H:96-115 | Under the defaults ("Cubic"), two equal previous steps give no predicted step at inner iteration 2. |
| `Interpolation.ScenarioQuadraticOneThird` | packages/nox/src/NOX_LineSearch_Polynomial.H:89-94 | φ(0) = 10, φ'(0) = -2, φ(1) = 11 gives the quadratic step 1/3, which the default bounds leave alone. |
| `Search.IterateShape` | packages/nox/src/NOX_LineSearch_Polynomial.H:47-52 | Each refinement appends one trial. The iteration count equals the number of trials. An accepted refinement is the last trial. |
| `Search.IterateRejections` | packages/nox/src/NOX_LineSearch_Polynomial.H:56-61 | Refinement stops at the first accepted trial. |
| `Search.IterateLimits` | packages/nox/src/NOX_LineSearch_Polynomial.H:163-169 | The "Max Iters" and "Minimum Step" exits happen only when their conditions hold. |
| `Search.Iterate` | packages/nox/src/NOX_LineSearch_Polynomial.H:163-169 | Definition of the refinement loop. Before each refinement it fails with MaxItersExceeded once the count exceeds "Max Iters". Otherwise it predicts a step and fails with PredictorFailure if there is none. It clamps the prediction and fails with StepBelowMinimum, before evaluating, if the clamped step is below "Minimum Step". Otherwise it evaluates the step as the next inner iteration and succeeds if the step is accepted, or repeats with it as the newest trial. |
| `Search.Run` | packages/nox/src/NOX_LineSearch_Polynomial.H:47-74 | Definition of one whole search: the default step is tried as inner iteration 1 and, if rejected, `Search.Iterate` continues from it. `Driver.Polynomial.Compute` is proved to return what it specifies. |
| `Search.SearchShape` | packages/nox/src/NOX_LineSearch_Polynomial.H:47-74 | The first trial is the default step. The count of inner iterations equals the number of trials and, for "Max Iters" >= 0, is at most "Max Iters" + 1 (a negative "Max Iters" still allows the default step as inner iteration 1). Stopping on "Max Iters" means the count exceeds it. |
| `Search.SearchMinimumStep` | packages/nox/src/NOX_LineSearch_Polynomial.H:68-72 | Stopping for a small step reports a computed step below "Minimum Step". Every refinement that was evaluated is at least "Minimum Step". |
| `Search.SearchOutcome` | packages/nox/src/NOX_LineSearch_Polynomial.H:56-74 | Success ends at a trial the acceptance test accepts, and every earlier trial was rejected. A failed search evaluated only rejected trials. |
| `Search.ForcedInterpolation` | packages/nox/src/NOX_LineSearch_Polynomial.H:215-218 | With "Force Interpolation", every search is non-trivial, and a successful one used at least one refinement. |
| `Search.NonTrivialCharacterization` | packages/nox/src/NOX_LineSearch_Polynomial.H:254-257 | Non-trivial iff the search did not stop with the default step accepted. A successful non-trivial search evaluated a refinement, and one that evaluated a refinement is non-trivial. |
| `Search.SearchBounded` | packages/nox/src/NOX_LineSearch_Polynomial.H:137-146 | With 0 <= γ_min <= γ_max and λ_0 >= 0, every refinement satisfies `γ_min λ_{k-1} <= λ_k <= γ_max λ_{k-1}`, and all trials are non-negative. |
| `Search.SearchPositive` | packages/nox/src/NOX_LineSearch_Polynomial.H:137-146 | With γ_min > 0 and λ_0 > 0, every trial and the last computed step are strictly positive. |
| `Search.SearchNonIncreasing` | packages/nox/src/NOX_LineSearch_Polynomial.H:137-146 | With γ_max <= 1, the trial steps never grow. |
| `Search.ReturnedStep` | packages/nox/src/NOX_LineSearch_Polynomial.H:171-182 | Definition of the step compute returns: the accepted step on success; on failure "Recovery Step" under "Constant" and the last computed step under "Last Computed Step". |
| `Search.NonTrivial` | packages/nox/src/NOX_LineSearch_Polynomial.H:254-257 | Definition of a non-trivial search: the default step, as inner iteration 1, is not accepted. |
| `Search.RecoveryStep` | packages/nox/src/NOX_LineSearch_Polynomial.H:171-182 | On success the returned step is the accepted trial. On failure it is "Recovery Step" under "Constant". Under "Last Computed Step" it is the last trial, or the computed step that fell below "Minimum Step". |
| `Search.SecondTrial` | packages/nox/src/NOX_LineSearch_Polynomial.H:96-98 | The second trial is the clamped first interpolation step: `λ_0 / 2` for "Quadratic3", and the quadratic formula (which is then defined) for "Quadratic" and "Cubic". |
| `Search.ScenarioCubicFailsOnQuadratic` | packages/nox/src/NOX_LineSearch_Polynomial.H:96-115 | φ(λ) = 10 - 2λ + 100λ² under the defaults: λ_0 = 1 is rejected, the quadratic step 0.01 is raised to 0.1 by the lower bound and rejected, and the cubic formula then has no step. The search fails after two inner iterations. |
| `Search.ScenarioAcceptedBeyondMaxIters` | packages/nox/src/NOX_LineSearch_Polynomial.H:163-165 | With "Max Iters" = 1, "Quadratic" and φ(λ) = 10 - 2λ + 3λ², the search accepts 1/3 at inner iteration 2, a count above "Max Iters". |
| `Search.ScenarioFixedBoundsFail` | packages/nox/src/NOX_LineSearch_Polynomial.H:96-115 | With γ_min = γ_max = 1 under otherwise default settings and φ(λ) = 10 - 2λ + 3λ², the full step is rejected twice and the cubic formula then has no step: the search fails after two inner iterations with trials [1, 1]. |
| `Search.ScenarioOneRefinement` | packages/nox/src/NOX_LineSearch_Polynomial.H:47-52 | φ(λ) = 10 - 2λ + 3λ² under the defaults: λ_0 = 1 is rejected, then λ_1 = 1/3 is accepted in two inner iterations. |
| `Driver.Counters.constructor` | packages/nox/src/NOX_LineSearch_Polynomial.H:251-263 | All four counters start at zero. |
| `Driver.Counters.IncrementNumLineSearches` | packages/nox/src/NOX_LineSearch_Polynomial.H:251-252 | Adds one to the count of calls and changes no other counter. |
| `Driver.Counters.IncrementNumNonTrivialLineSearches` | packages/nox/src/NOX_LineSearch_Polynomial.H:254-257 | Adds one to the count of non-trivial searches and changes no other counter. |
| `Driver.Counters.IncrementNumFailedLineSearches` | packages/nox/src/NOX_LineSearch_Polynomial.H:259-260 | Adds one to the count of failed searches and changes no other counter. |
| `Driver.Counters.IncrementNumIterations` | packages/nox/src/NOX_LineSearch_Polynomial.H:262-263 | Adds one call's inner iterations to the total and changes no other counter. |
| `Driver.Polynomial.constructor` | packages/nox/src/NOX_LineSearch_Polynomial.H:292-294 | Requires valid bounds factors and establishes the object invariant `Valid()`. Stores the configuration and the collaborators, with fresh zeroed counters. |
| `Driver.Polynomial.UpdateGrp` | packages/nox/src/NOX_LineSearch_Polynomial.H:391-409 | The new group holds `x_old + λ d`. Only the new group changes. |
| `Driver.Polynomial.TryStep` | packages/nox/src/NOX_LineSearch_Polynomial.H:388-425 | After updating the group, the returned φ is the merit at `x_old + λ d`, and the verdict is exactly `Search.Accepts`, which is `checkConvergence` applied to the computed value. |
| `Driver.Polynomial.Refine` | packages/nox/src/NOX_LineSearch_Polynomial.H:56-74 | The refinement loop succeeds exactly when `Search.Iterate`'s reason is Accepted, with its last step and iteration count. On success, the group holds the accepted step. |
| `Driver.Polynomial.Compute` | packages/nox/src/NOX_LineSearch_Polynomial.H:304-306 | Requires and keeps the object invariant `Valid()`. Success, the step and the inner-iteration count are exactly those of `Search.Run`. The new group holds `x_old + step · d`. The counters grow, when "Use Counters" is set, by 1 call, by 1 non-trivial search iff the default step was rejected, by 1 failure iff the recovery step was used, and by the call's inner iterations. |

## Left out

- Search.Iterate: does not promise that a count above "Max Iters" means failure, as lines 164-165 do. The model reads "Max Iters", the "Maximum number of line search iterations" of line 163, as the maximum number of refinements after the default step. It tests the count before each refinement, when the maximum is reached (the stopping criterion at lines 62-64), so a refinement evaluated as inner iteration "Max Iters" + 1 can still be accepted (`Search.ScenarioAcceptedBeyondMaxIters`). `Driver.Polynomial.Refine` makes the same test, and `Search.SearchShape` proves the converse: a stop on "Max Iters" has a count above it.

- IEEE double rounding, overflow, infinities and NaN: the model computes over exact reals. The one exception is the zero divisor in the relative-increase ratio, which is modelled as double arithmetic would evaluate it.
- The merit function, `computeF`/`getNormF` of the group, the slope utility and the user-defined merit function and norm are collaborators. They are passed in as functions, and the group is reduced to its solution vector.
- The square root of the cubic formula is a caller-supplied function. `Interpolation.CubicModelCritical` assumes its value is the non-negative root of the discriminant, because the model cannot compute roots.
- Interpolation.CubicStep: a zero `a` and a negative discriminant (and, in `Interpolation.Predict`, two equal previous steps or a zero one) get no fallback step, because the header defines none, so they stop the search as a failure. A zero `a` is exactly the case of a merit that is quadratic along the direction, such as the merit of a linear residual (`Interpolation.CubicDegenerateOnQuadratic`). For φ(λ) = 10 - 2λ + 100λ² the default "Cubic" search rejects λ = 1 and the clamped quadratic step 0.1, then fails at inner iteration 2 (`Search.ScenarioCubicFailsOnQuadratic`).
- Driver.Polynomial.UpdateGrp: the `bool` status of computing F(x_new) is not modelled, because the merit function is total here.
- Parameter parsing, `reset`, the `Teuchos::RCP` global data and writing the "Output" sublist are configuration plumbing. The configuration is an immutable record checked once by `Config.Valid`.
- `printOpeningRemarks` and `printBadSlopeWarning` only print.
- The `NOX::Solver::Generic` argument of `compute` is reduced to the two numbers the line search reads from it: the nonlinear iteration index and the forcing term η.

=== FILE: acceptance.dfy ===
/** The acceptance test of a trial step (checkConvergence) and the value it
    is applied to (computeValue). */
module Acceptance {
  import opened Config

  /** newValue / oldValue < maxRelativeIncrease, evaluated as double
      arithmetic would for a zero divisor: x / 0 is +infinity for x > 0,
      NaN for x == 0 and -infinity for x < 0, and only -infinity compares
      below a finite bound. */
  predicate RelativeIncreaseHolds(newValue: real, oldValue: real, maxRelativeIncrease: real) {
    if oldValue == 0.0 then newValue < 0.0
    else newValue / oldValue < maxRelativeIncrease
  }

  /** The "Relative Increase" override of rule 2. */
  predicate IncreaseAllowed(p: Params, newValue: real, oldValue: real, nNonlinearIters: int) {
    p.DoAllowIncrease() && nNonlinearIters <= p.maxIncreaseIter
    && RelativeIncreaseHolds(newValue, oldValue, p.maxRelativeIncrease)
  }

  /** True if the trial step is accepted. Rules in order: forced
      interpolation, then the relative-increase override, then the
      configured sufficient-decrease condition. */
  function CheckConvergence(p: Params, newValue: real, oldValue: real, oldSlope: real,
                            step: real, eta: real, nIters: int, nNonlinearIters: int): (r: bool)
    // rule 1: the first inner iteration is rejected when interpolation is forced
    ensures p.doForceInterpolation && nIters == 1 ==> !r
    // rule 2: otherwise an allowed relative increase is accepted; for a
    // zero oldValue the ratio is below the bound only when it is -infinity
    ensures !(p.doForceInterpolation && nIters == 1)
            && p.maxIncreaseIter > 0 && nNonlinearIters <= p.maxIncreaseIter
            && (if oldValue == 0.0 then newValue < 0.0 else newValue / oldValue < p.maxRelativeIncrease)
            ==> r
    // rule 3: otherwise the sufficient-decrease condition decides
    ensures !(p.doForceInterpolation && nIters == 1)
            && !IncreaseAllowed(p, newValue, oldValue, nNonlinearIters)
            ==> (r <==> match p.suffDecrCond
                        case ArmijoGoldstein => newValue <= oldValue + p.alpha * step * oldSlope
                        case AredPred => newValue <= oldValue * (1.0 - p.alpha * (1.0 - eta))
                        case NoCondition => true)
  {
    if p.doForceInterpolation && nIters == 1 then
      false
    else if IncreaseAllowed(p, newValue, oldValue, nNonlinearIters) then
      true
    else
      match p.suffDecrCond
      case ArmijoGoldstein => newValue <= oldValue + p.alpha * step * oldSlope
      case AredPred => newValue <= oldValue * (1.0 - p.alpha * (1.0 - eta))
      case NoCondition => true
  }

  /** The decrease measure of a state: the norm of its residual under
      Ared/Pred (the user's norm when one is given), the merit value phi
      otherwise. */
  function ComputeValue(p: Params, norm: seq<real> -> real, x: seq<real>, phi: real): (r: real)
    ensures p.suffDecrCond == AredPred ==> r == norm(x)
    ensures p.suffDecrCond != AredPred ==> r == phi
  {
    if p.suffDecrCond == AredPred then norm(x) else phi
  }

  /** Acceptance is monotone in the new value: a step whose decrease
      measure is no larger than that of an accepted step is accepted too
      (the measures compared are never negative). */
  lemma AcceptanceMonotone(p: Params, newValue: real, smaller: real, oldValue: real, oldSlope: real,
                           step: real, eta: real, nIters: int, nNonlinearIters: int)
    requires oldValue >= 0.0 && smaller <= newValue
    requires CheckConvergence(p, newValue, oldValue, oldSlope, step, eta, nIters, nNonlinearIters)
    ensures CheckConvergence(p, smaller, oldValue, oldSlope, step, eta, nIters, nNonlinearIters)
  {
    if IncreaseAllowed(p, newValue, oldValue, nNonlinearIters) && oldValue != 0.0 {
      assert smaller / oldValue <= newValue / oldValue by {
        DivideMonotone(smaller, newValue, oldValue);
      }
      assert IncreaseAllowed(p, smaller, oldValue, nNonlinearIters);
    }
  }

  lemma DivideMonotone(x: real, y: real, c: real)
    requires x <= y && c > 0.0
    ensures x / c <= y / c
  {
    assert y / c - x / c == (y - x) / c;
    assert (y - x) / c * c == y - x;
  }

  /** With the default configuration an increase of the merit value is
      never accepted: rule 2 is switched off. */
  lemma DefaultsNeverAllowIncrease(newValue: real, oldValue: real, oldSlope: real,
                                   step: real, eta: real, nIters: int, nNonlinearIters: int)
    ensures CheckConvergence(Defaults(), newValue, oldValue, oldSlope, step, eta, nIters, nNonlinearIters)
            <==> newValue <= oldValue + 0.0001 * step * oldSlope
  {
  }

  /** phi(0) = 10, phi'(0) = -2, phi(1) = 9 under the default Armijo-Goldstein
      test: 9 <= 10 - 0.0002, so the default step is accepted. */
  lemma ScenarioDefaultStepAccepted()
    ensures CheckConvergence(Defaults(), 9.0, 10.0, -2.0, 1.0, 0.0, 1, 0)
  {
  }

  /** phi(1) = 11 instead: the default step is rejected. */
  lemma ScenarioDefaultStepRejected()
    ensures !CheckConvergence(Defaults(), 11.0, 10.0, -2.0, 1.0, 0.0, 1, 0)
  {
  }
}

=== FILE: config.dfy ===
/** The configuration of the polynomial line search ("Line Search"/"Polynomial"
    options), as an immutable record that is validated once. */
module Config {

  /** Choices of "Sufficient Decrease Condition" used by the acceptance test. */
  datatype SufficientDecreaseType = ArmijoGoldstein | AredPred | NoCondition

  /** Choices of "Interpolation Type" used by the step predictor. */
  datatype InterpolationType = Quadratic | Cubic | Quadratic3

  /** Choices of "Recovery Step Type": the step taken when the search fails. */
  datatype RecoveryStepType = Constant | LastComputedStep

  datatype Params = Params(
    defaultStep: real,             // "Default Step", lambda_0
    maxIters: int,                 // "Max Iters"
    minStep: real,                 // "Minimum Step"
    recoveryStepType: RecoveryStepType,
    recoveryStep: real,            // "Recovery Step"
    interpolationType: InterpolationType,
    minBoundFactor: real,          // gamma_min, "Min Bounds Factor"
    maxBoundFactor: real,          // gamma_max, "Max Bounds Factor"
    suffDecrCond: SufficientDecreaseType,
    alpha: real,                   // "Alpha Factor"
    doForceInterpolation: bool,    // "Force Interpolation"
    useCounter: bool,              // "Use Counters"
    maxIncreaseIter: int,          // "Maximum Iteration for Increase"
    maxRelativeIncrease: real      // "Allowed Relative Increase"
  ) {
    /** Increases of the decrease measure are ever allowed only when
        "Maximum Iteration for Increase" is positive. */
    predicate DoAllowIncrease() {
      maxIncreaseIter > 0
    }
  }

  /** The validation made once when the configuration is read: the bounds
      factors must not cross. */
  predicate Valid(p: Params) {
    p.minBoundFactor <= p.maxBoundFactor
  }

  /** The configuration obtained when no option is given. */
  function Defaults(): (p: Params)
    ensures Valid(p)
    ensures p.recoveryStep == p.defaultStep && p.defaultStep > 0.0
    ensures !p.DoAllowIncrease() && !p.doForceInterpolation
    ensures 0.0 < p.minBoundFactor <= p.maxBoundFactor < 1.0
  {
    Params(
      defaultStep := 1.0,
      maxIters := 100,
      minStep := 0.000000000001,
      recoveryStepType := Constant,
      recoveryStep := 1.0,
      interpolationType := Cubic,
      minBoundFactor := 0.1,
      maxBoundFactor := 0.5,
      suffDecrCond := ArmijoGoldstein,
      alpha := 0.0001,
      doForceInterpolation := false,
      useCounter := true,
      maxIncreaseIter := 0,
      maxRelativeIncrease := 100.0)
  }
}

=== FILE: driver.dfy ===
/** The line search object: its configuration, its counters, and compute,
    which refines the step in a loop, rewrites the new group in place and
    updates the counters. compute is proved to do exactly what the
    functional specification Search.Run describes. */
module Driver {
  import opened Config
  import opened Vectors
  import opened Acceptance
  import opened Interpolation
  import opened Search

  /** The part of a group the line search reads and writes: its solution
      vector. F(x) and everything derived from it are left to the merit
      function and the norm, which are given x. */
  class Group {
    var x: seq<real>

    constructor(x0: seq<real>)
      ensures x == x0
    {
      x := x0;
    }
  }

  /** The line search counters: total calls of compute, non-trivial
      searches, failed searches and inner iterations summed over all
      calls. */
  class Counters {
    var numLineSearches: nat
    var numNonTrivialLineSearches: nat
    var numFailedLineSearches: nat
    var numIterations: nat

    constructor()
      ensures numLineSearches == 0 && numNonTrivialLineSearches == 0
      ensures numFailedLineSearches == 0 && numIterations == 0
    {
      numLineSearches := 0;
      numNonTrivialLineSearches := 0;
      numFailedLineSearches := 0;
      numIterations := 0;
    }

    method IncrementNumLineSearches()
      modifies this
      ensures numLineSearches == old(numLineSearches) + 1
      ensures numNonTrivialLineSearches == old(numNonTrivialLineSearches)
      ensures numFailedLineSearches == old(numFailedLineSearches)
      ensures numIterations == old(numIterations)
    {
      numLineSearches := numLineSearches + 1;
    }

    method IncrementNumNonTrivialLineSearches()
      modifies this
      ensures numLineSearches == old(numLineSearches)
      ensures numNonTrivialLineSearches == old(numNonTrivialLineSearches) + 1
      ensures numFailedLineSearches == old(numFailedLineSearches)
      ensures numIterations == old(numIterations)
    {
      numNonTrivialLineSearches := numNonTrivialLineSearches + 1;
    }

    method IncrementNumFailedLineSearches()
      modifies this
      ensures numLineSearches == old(numLineSearches)
      ensures numNonTrivialLineSearches == old(numNonTrivialLineSearches)
      ensures numFailedLineSearches == old(numFailedLineSearches) + 1
      ensures numIterations == old(numIterations)
    {
      numFailedLineSearches := numFailedLineSearches + 1;
    }

    method IncrementNumIterations(n: nat)
      modifies this
      ensures numLineSearches == old(numLineSearches)
      ensures numNonTrivialLineSearches == old(numNonTrivialLineSearches)
      ensures numFailedLineSearches == old(numFailedLineSearches)
      ensures numIterations == old(numIterations) + n
    {
      numIterations := numIterations + n;
    }
  }

  class Polynomial {
    const params: Params
    const counter: Counters
    /** The merit function phi, evaluated at a solution vector. */
    const merit: seq<real> -> real
    /** The norm used by the Ared/Pred condition. */
    const norm: seq<real> -> real
    /** The slope utility: phi'(0) for a direction at a solution vector. */
    const slope: (seq<real>, seq<real>) -> real
    /** The square root used by the cubic formula. */
    const sqrt: real -> real

    /** The object invariant: the configuration passed validation. */
    ghost predicate Valid() {
      Config.Valid(params)
    }

    /** Only a configuration whose bounds factors do not cross is accepted. */
    constructor(params: Params, merit: seq<real> -> real, norm: seq<real> -> real,
                slope: (seq<real>, seq<real>) -> real, sqrt: real -> real)
      requires Config.Valid(params)
      ensures Valid()
      ensures this.params == params && this.merit == merit && this.norm == norm
      ensures this.slope == slope && this.sqrt == sqrt
      ensures fresh(counter)
      ensures counter.numLineSearches == 0 && counter.numNonTrivialLineSearches == 0
      ensures counter.numFailedLineSearches == 0 && counter.numIterations == 0
    {
      this.params := params;
      this.merit := merit;
      this.norm := norm;
      this.slope := slope;
      this.sqrt := sqrt;
      counter := new Counters();
    }

    /** The problem one call of compute solves, in the terms of Search. */
    function ProblemOf(xOld: seq<real>, dir: seq<real>, eta: real, nNonlinearIters: int): Problem {
      Problem(xOld, dir, merit, norm, slope(dir, xOld), eta, nNonlinearIters, sqrt)
    }

    /** x_new = x_old + step * dir, stored in newGrp. */
    method UpdateGrp(newGrp: Group, oldGrp: Group, dir: seq<real>, step: real)
      requires newGrp != oldGrp && |oldGrp.x| == |dir|
      modifies newGrp
      ensures newGrp.x == Axpy(oldGrp.x, step, dir)
    {
      newGrp.x := Axpy(oldGrp.x, step, dir);
    }

    /** Moves newGrp to x_old + step * dir and applies the acceptance test
        there, as inner iteration nIters: returns phi at the new point and
        whether the step is accepted. */
    method TryStep(newGrp: Group, oldGrp: Group, dir: seq<real>, step: real, oldValue: real,
                   oldSlope: real, eta: real, nIters: int, nNonlinearIters: int)
      returns (newPhi: real, accepted: bool)
      requires newGrp != oldGrp && |oldGrp.x| == |dir|
      requires var pr := ProblemOf(oldGrp.x, dir, eta, nNonlinearIters);
               oldValue == OldValue(params, pr) && oldSlope == pr.oldSlope
      modifies newGrp
      ensures newGrp.x == Axpy(oldGrp.x, step, dir)
      ensures var pr := ProblemOf(oldGrp.x, dir, eta, nNonlinearIters);
              newPhi == Phi(pr, step) && accepted == Accepts(params, pr, step, nIters)
    {
      UpdateGrp(newGrp, oldGrp, dir, step);
      newPhi := merit(newGrp.x);
      var newValue := ComputeValue(params, norm, newGrp.x, newPhi);
      accepted := CheckConvergence(params, newValue, oldValue, oldSlope, step, eta, nIters, nNonlinearIters);
    }

    /** The inner iterations after the default step step0 was rejected:
        predict, clamp and try refined steps until one is accepted, the
        iteration count exceeds Max Iters, the predictor has no step or a
        step falls below Minimum Step. newGrp ends at the last trial. */
    method Refine(newGrp: Group, oldGrp: Group, dir: seq<real>, eta: real, nNonlinearIters: int,
                  oldPhi: real, oldValue: real, oldSlope: real, step0: real, phi0: real)
      returns (isFailed: bool, step: real, nIters: nat)
      requires newGrp != oldGrp && |oldGrp.x| == |dir|
      requires var pr := ProblemOf(oldGrp.x, dir, eta, nNonlinearIters);
               && oldPhi == OldPhi(pr) && oldValue == OldValue(params, pr) && oldSlope == pr.oldSlope
               && phi0 == Phi(pr, step0)
      modifies newGrp
      ensures var e := Iterate(params, ProblemOf(oldGrp.x, dir, eta, nNonlinearIters), 1,
                               Point(step0, phi0), Point(0.0, 0.0), [step0]);
              isFailed == (e.reason != Accepted) && step == e.lastStep && nIters == e.nIters
      ensures !isFailed ==> newGrp.x == Axpy(oldGrp.x, step, dir)
    {
      ghost var pr := ProblemOf(oldGrp.x, dir, eta, nNonlinearIters);
      ghost var e := Iterate(params, pr, 1, Point(step0, phi0), Point(0.0, 0.0), [step0]);
      step, nIters := step0, 1;
      var newPhi := phi0;
      var prevStep, prevPhi := 0.0, 0.0;
      var isConverged := false;
      isFailed := false;
      ghost var trials := [step];
      while !isConverged
        invariant nIters >= 1 && |trials| == nIters
        invariant newPhi == Phi(pr, step)
        invariant isConverged ==> newGrp.x == Axpy(oldGrp.x, step, dir)
        invariant isConverged ==> e == Exit(Accepted, step, nIters, trials) && !isFailed
        invariant !isConverged ==> e == Iterate(params, pr, nIters, Point(step, newPhi), Point(prevStep, prevPhi), trials)
        decreases params.maxIters + 1 - nIters
      {
        if nIters > params.maxIters {
          isFailed := true;
          break;
        }
        var predicted := Predict(params, nIters, oldPhi, oldSlope, Point(step, newPhi), Point(prevStep, prevPhi), sqrt);
        if predicted.None? {
          isFailed := true;
          break;
        }
        var tempStep := Clamp(predicted.value, step, params.minBoundFactor, params.maxBoundFactor);
        prevStep, prevPhi := step, newPhi;
        step := tempStep;
        if step < params.minStep {
          isFailed := true;
          break;
        }
        nIters := nIters + 1;
        trials := trials + [step];
        newPhi, isConverged := TryStep(newGrp, oldGrp, dir, step, oldValue, oldSlope, eta, nIters, nNonlinearIters);
      }
    }

    /** One line search from oldGrp along dir. Returns whether it succeeded
        and the step taken; newGrp holds x_old + step * dir. */
    method Compute(newGrp: Group, oldGrp: Group, dir: seq<real>, eta: real, nNonlinearIters: int)
      returns (ok: bool, step: real)
      requires Valid()
      requires newGrp != oldGrp && |oldGrp.x| == |dir|
      modifies newGrp, counter
      ensures Valid()
      ensures var e := Search.Run(params, ProblemOf(oldGrp.x, dir, eta, nNonlinearIters));
              && ok == (e.reason == Accepted)
              && step == ReturnedStep(params, e)
              && counter.numIterations == old(counter.numIterations) + (if params.useCounter then e.nIters else 0)
              && counter.numFailedLineSearches
                 == old(counter.numFailedLineSearches) + (if params.useCounter && !ok then 1 else 0)
      ensures newGrp.x == Axpy(oldGrp.x, step, dir)
      ensures counter.numLineSearches == old(counter.numLineSearches) + (if params.useCounter then 1 else 0)
      ensures var pr := ProblemOf(oldGrp.x, dir, eta, nNonlinearIters);
              counter.numNonTrivialLineSearches
              == old(counter.numNonTrivialLineSearches) + (if params.useCounter && NonTrivial(params, pr) then 1 else 0)
    {
      if params.useCounter {
        counter.IncrementNumLineSearches();
      }
      var xOld := oldGrp.x;
      ghost var pr := ProblemOf(xOld, dir, eta, nNonlinearIters);
      ghost var e := Search.Run(params, pr);

      var oldPhi := merit(xOld);
      var oldValue := ComputeValue(params, norm, xOld, oldPhi);
      var oldSlope := slope(dir, xOld);

      // inner iteration 1: the default step
      step := params.defaultStep;
      var nIters: nat := 1;
      var newPhi, isConverged := TryStep(newGrp, oldGrp, dir, step, oldValue, oldSlope, eta, nIters, nNonlinearIters);
      if !isConverged && params.useCounter {
        counter.IncrementNumNonTrivialLineSearches();
      }
      var isFailed := false;
      if !isConverged {
        isFailed, step, nIters := Refine(newGrp, oldGrp, dir, eta, nNonlinearIters, oldPhi, oldValue, oldSlope, step, newPhi);
      }
      assert isFailed <==> e.reason != Accepted;
      assert e.lastStep == step && e.nIters == nIters;

      if isFailed {
        if params.useCounter {
          counter.IncrementNumFailedLineSearches();
        }
        if params.recoveryStepType == Constant {
          step := params.recoveryStep;
        }
        UpdateGrp(newGrp, oldGrp, dir, step);
      }
      if params.useCounter {
        counter.IncrementNumIterations(nIters);
      }
      ok := !isFailed;
    }
  }
}

=== FILE: interpolation.dfy ===
/** The step predictor: closed-form critical points of polynomial models
    of the merit function phi(lambda) = f(x + lambda d), and the bounds that keep
    each new step near the last one.

    Every formula is written on plain numbers: phi0 = phi(0), s = phi'(0),
    and samples (l1, p1) = (lambda_{k-1}, phi(lambda_{k-1})) and
    (l2, p2) = (lambda_{k-2}, phi(lambda_{k-2})). A formula returns None
    where its denominator vanishes (or, for the cubic, its discriminant is
    negative). Each step function states, as its postcondition, the
    division-free relation its result satisfies; the lemmas beside it show
    that any number satisfying that relation is the vertex of the
    corresponding quadratic model (its minimizer when the model is convex)
    or a critical point with non-negative curvature of the cubic model (its
    minimizer when the discriminant is positive). */
module Interpolation {
  import opened Config

  datatype Option<T> = None | Some(value: T)

  /** A sample (lambda, phi(lambda)) of the merit function. */
  datatype Point = Point(step: real, phi: real)

  /** The quadratic phi0 + b l + c l^2. */
  function Quad(phi0: real, b: real, c: real, l: real): real {
    phi0 + b * l + c * l * l
  }

  /** The cubic phi0 + s l + b l^2 + a l^3. */
  function CubicModel(phi0: real, s: real, b: real, a: real, l: real): real {
    phi0 + s * l + b * l * l + a * l * l * l
  }

  /** phi(l1) - phi(0) - phi'(0) l1: how far a sample lies above the
      tangent line at zero. */
  function Excess(phi0: real, s: real, l1: real, p1: real): real {
    p1 - phi0 - s * l1
  }

  /** Excess / l1^2: the leading coefficient of the quadratic that matches
      phi(0), phi'(0) and the sample (l1, p1). */
  function Curvature(phi0: real, s: real, l1: real, p1: real): (c: real)
    requires l1 != 0.0
    ensures c * (l1 * l1) == Excess(phi0, s, l1, p1)
  {
    var e := Excess(phi0, s, l1, p1);
    var c := e / (l1 * l1);
    DivSquare(c, e, l1);
    c
  }

  // ---------------------------------------------------------------------
  // "Quadratic"
  // ---------------------------------------------------------------------

  /** "Quadratic": the vertex of the quadratic that interpolates phi(0),
      phi'(0) and phi(lambda_{k-1}),
        lambda_k = -phi'(0) lambda_{k-1}^2 / (2 [phi(lambda_{k-1}) - phi(0) - phi'(0) lambda_{k-1}]).
      Undefined when the bracket in the denominator is zero. The vertex is
      the minimizer only when that quadratic is convex. */
  function QuadraticStep(phi0: real, s: real, l1: real, p1: real): (r: Option<real>)
    ensures r.Some? <==> Excess(phi0, s, l1, p1) != 0.0
    ensures r.Some? ==> 2.0 * Excess(phi0, s, l1, p1) * r.value == -s * l1 * l1
  {
    var denom := 2.0 * Excess(phi0, s, l1, p1);
    if denom == 0.0 then None
    else
      var l := -s * l1 * l1 / denom;
      DivMulEq(l, -s * l1 * l1, denom);
      Some(l)
  }

  /** The quadratic with curvature c that matches phi(0), phi'(0) and the
      sample (l1, p1) has its vertex at every l satisfying the relation of
      QuadraticStep; when the model is convex the vertex is its global
      minimizer. */
  lemma QuadraticModelVertex(phi0: real, s: real, l1: real, p1: real, c: real, l: real)
    requires l1 != 0.0
    requires c * (l1 * l1) == Excess(phi0, s, l1, p1)
    requires 2.0 * Excess(phi0, s, l1, p1) * l == -s * l1 * l1
    ensures Quad(phi0, s, c, 0.0) == phi0
    ensures Quad(phi0, s, c, l1) == p1
    ensures s + 2.0 * c * l == 0.0
    ensures c > 0.0 ==> forall y :: Quad(phi0, s, c, y) >= Quad(phi0, s, c, l)
  {
    assert c * l1 * l1 == c * (l1 * l1);
    // (s + 2 c l) l1^2 = s l1^2 + l (2 Excess) = s l1^2 - s l1^2 = 0
    var u := s + 2.0 * c * l;
    assert u * (l1 * l1) == s * (l1 * l1) + l * (2.0 * Excess(phi0, s, l1, p1));
    assert l * (2.0 * Excess(phi0, s, l1, p1)) == -(s * (l1 * l1));
    ZeroBySquare(u, l1);
    if c > 0.0 {
      VertexIsMinimum(phi0, s, c, l);
    }
  }

  /** The quadratic step is the vertex of the model built from Curvature. */
  lemma QuadraticStepIsVertex(phi0: real, s: real, l1: real, p1: real)
    requires l1 != 0.0 && QuadraticStep(phi0, s, l1, p1).Some?
    ensures var c := Curvature(phi0, s, l1, p1);
            s + 2.0 * c * QuadraticStep(phi0, s, l1, p1).value == 0.0
  {
    QuadraticModelVertex(phi0, s, l1, p1, Curvature(phi0, s, l1, p1), QuadraticStep(phi0, s, l1, p1).value);
  }

  // ---------------------------------------------------------------------
  // "Quadratic3"
  // ---------------------------------------------------------------------

  /** The numerator and denominator of the "Quadratic3" formula, for the
      samples (l1, phi(0) + d1) and (l2, phi(0) + d2). */
  function Quadratic3Num(l1: real, d1: real, l2: real, d2: real): real {
    l1 * l1 * d2 - l2 * l2 * d1
  }

  function Quadratic3Den(l1: real, d1: real, l2: real, d2: real): real {
    l2 * d1 - l1 * d2
  }

  /** "Quadratic3" for k >= 2: the vertex of the quadratic through phi(0),
      phi(lambda_{k-1}) and phi(lambda_{k-2}), without derivative information,
        lambda_k = -1/2 (lambda_{k-1}^2 [phi(lambda_{k-2}) - phi(0)] - lambda_{k-2}^2 [phi(lambda_{k-1}) - phi(0)])
                       / (lambda_{k-2} [phi(lambda_{k-1}) - phi(0)] - lambda_{k-1} [phi(lambda_{k-2}) - phi(0)]).
      Undefined when the three samples are collinear (zero denominator). The
      vertex is the minimizer only when that quadratic is convex. */
  function Quadratic3Step(phi0: real, l1: real, p1: real, l2: real, p2: real): (r: Option<real>)
    ensures r.Some? <==> Quadratic3Den(l1, p1 - phi0, l2, p2 - phi0) != 0.0
    ensures r.Some? ==>
              2.0 * Quadratic3Den(l1, p1 - phi0, l2, p2 - phi0) * r.value == -Quadratic3Num(l1, p1 - phi0, l2, p2 - phi0)
  {
    var num := Quadratic3Num(l1, p1 - phi0, l2, p2 - phi0);
    var den := Quadratic3Den(l1, p1 - phi0, l2, p2 - phi0);
    if den == 0.0 then None
    else
      var l := -0.5 * num / den;
      DivMulEq(l, -0.5 * num, den);
      Some(l)
  }

  /** Any quadratic phi0 + b l + c l^2 through both samples has its vertex
      at every l satisfying the relation of Quadratic3Step; when the model
      is convex the vertex is its global minimizer. */
  lemma Quadratic3ModelVertex(phi0: real, l1: real, p1: real, l2: real, p2: real, b: real, c: real, l: real)
    requires l1 != 0.0 && l2 != 0.0 && l1 != l2
    requires Quad(phi0, b, c, l1) == p1 && Quad(phi0, b, c, l2) == p2
    requires 2.0 * Quadratic3Den(l1, p1 - phi0, l2, p2 - phi0) * l == -Quadratic3Num(l1, p1 - phi0, l2, p2 - phi0)
    ensures b + 2.0 * c * l == 0.0
    ensures c > 0.0 ==> forall y :: Quad(phi0, b, c, y) >= Quad(phi0, b, c, l)
  {
    Quadratic3Solves(phi0, l1, p1, l2, p2, b, c);
    SlopeZero(Quadratic3Num(l1, p1 - phi0, l2, p2 - phi0), Quadratic3Den(l1, p1 - phi0, l2, p2 - phi0),
              l1, l2, b, c, l);
    if c > 0.0 {
      VertexIsMinimum(phi0, b, c, l);
    }
  }

  /** A quadratic through both samples solves the 2x2 system. */
  lemma Quadratic3Solves(phi0: real, l1: real, p1: real, l2: real, p2: real, b: real, c: real)
    requires Quad(phi0, b, c, l1) == p1 && Quad(phi0, b, c, l2) == p2
    ensures b * (l1 * l2 * (l1 - l2)) == Quadratic3Num(l1, p1 - phi0, l2, p2 - phi0)
    ensures c * (l1 * l2 * (l1 - l2)) == Quadratic3Den(l1, p1 - phi0, l2, p2 - phi0)
  {
    QuadOffset(phi0, b, c, l1);
    QuadOffset(phi0, b, c, l2);
    FitNum(l1, p1 - phi0, l2, p2 - phi0, b, c);
    FitDen(l1, p1 - phi0, l2, p2 - phi0, b, c);
  }

  /** The coefficients b and c of the quadratic phi(0) + b l + c l^2 through
      the samples (l1, phi(0) + d1) and (l2, phi(0) + d2): the solution of
      the 2x2 system, with determinant l1 l2 (l1 - l2). */
  function Quadratic3B(l1: real, d1: real, l2: real, d2: real): (b: real)
    requires l1 != 0.0 && l2 != 0.0 && l1 != l2
    ensures b * (l1 * l2 * (l1 - l2)) == Quadratic3Num(l1, d1, l2, d2)
  {
    var num := Quadratic3Num(l1, d1, l2, d2);
    var b := num / (l1 * l2 * (l1 - l2));
    DivSpan(b, num, l1, l2);
    b
  }

  function Quadratic3C(l1: real, d1: real, l2: real, d2: real): (c: real)
    requires l1 != 0.0 && l2 != 0.0 && l1 != l2
    ensures c * (l1 * l2 * (l1 - l2)) == Quadratic3Den(l1, d1, l2, d2)
  {
    var den := Quadratic3Den(l1, d1, l2, d2);
    var c := den / (l1 * l2 * (l1 - l2));
    DivSpan(c, den, l1, l2);
    c
  }

  /** The model of Quadratic3B and Quadratic3C does pass through both
      samples, so Quadratic3ModelVertex applies to it. */
  lemma Quadratic3ModelInterpolates(phi0: real, l1: real, p1: real, l2: real, p2: real)
    requires l1 != 0.0 && l2 != 0.0 && l1 != l2
    ensures var b := Quadratic3B(l1, p1 - phi0, l2, p2 - phi0);
            var c := Quadratic3C(l1, p1 - phi0, l2, p2 - phi0);
            Quad(phi0, b, c, l1) == p1 && Quad(phi0, b, c, l2) == p2
  {
    var d1, d2 := p1 - phi0, p2 - phi0;
    var b := Quadratic3B(l1, d1, l2, d2);
    var c := Quadratic3C(l1, d1, l2, d2);
    ThreePointFit(l1, l2, d1, d2, b, c);
    QuadOffset(phi0, b, c, l1);
    QuadOffset(phi0, b, c, l2);
  }

  lemma QuadOffset(phi0: real, b: real, c: real, l: real)
    ensures Quad(phi0, b, c, l) == phi0 + (b * l + c * l * l)
  {
  }

  /** The coefficients solving the 2x2 system of the three-point fit match
      both samples. */
  lemma ThreePointFit(l1: real, l2: real, d1: real, d2: real, b: real, c: real)
    requires l1 != 0.0 && l2 != 0.0 && l1 != l2
    requires b * (l1 * l2 * (l1 - l2)) == Quadratic3Num(l1, d1, l2, d2)
    requires c * (l1 * l2 * (l1 - l2)) == Quadratic3Den(l1, d1, l2, d2)
    ensures b * l1 + c * l1 * l1 == d1
    ensures b * l2 + c * l2 * l2 == d2
  {
    FitFirst(l1, l2, d1, d2, b, c);
    FitSecond(l1, l2, d1, d2, b, c);
  }

  lemma FitFirst(l1: real, l2: real, d1: real, d2: real, b: real, c: real)
    requires l1 != 0.0 && l2 != 0.0 && l1 != l2
    requires b * (l1 * l2 * (l1 - l2)) == Quadratic3Num(l1, d1, l2, d2)
    requires c * (l1 * l2 * (l1 - l2)) == Quadratic3Den(l1, d1, l2, d2)
    ensures b * l1 + c * l1 * l1 == d1
  {
    var g := l1 - l2;
    var w := l1 * l2 * g;
    var u := b * l1 + c * l1 * l1;
    assert u * (l2 * g) == (b * w) + (c * w) * l1;
    assert (b * w) + (c * w) * l1 == d1 * (l2 * g);
    assert l2 * g != 0.0;
    CancelNonzero(u, d1, l2 * g);
  }

  lemma FitSecond(l1: real, l2: real, d1: real, d2: real, b: real, c: real)
    requires l1 != 0.0 && l2 != 0.0 && l1 != l2
    requires b * (l1 * l2 * (l1 - l2)) == Quadratic3Num(l1, d1, l2, d2)
    requires c * (l1 * l2 * (l1 - l2)) == Quadratic3Den(l1, d1, l2, d2)
    ensures b * l2 + c * l2 * l2 == d2
  {
    var g := l1 - l2;
    var w := l1 * l2 * g;
    var u := b * l2 + c * l2 * l2;
    assert u * (l1 * g) == (b * w) + (c * w) * l2;
    assert (b * w) + (c * w) * l2 == d2 * (l1 * g);
    assert l1 * g != 0.0;
    CancelNonzero(u, d2, l1 * g);
  }

  /** Conversely, coefficients matching both samples solve the system. */
  lemma FitNum(l1: real, d1: real, l2: real, d2: real, b: real, c: real)
    requires b * l1 + c * l1 * l1 == d1
    requires b * l2 + c * l2 * l2 == d2
    ensures b * (l1 * l2 * (l1 - l2)) == Quadratic3Num(l1, d1, l2, d2)
  {
  }

  lemma FitDen(l1: real, d1: real, l2: real, d2: real, b: real, c: real)
    requires b * l1 + c * l1 * l1 == d1
    requires b * l2 + c * l2 * l2 == d2
    ensures c * (l1 * l2 * (l1 - l2)) == Quadratic3Den(l1, d1, l2, d2)
  {
  }

  lemma SlopeZero(num: real, den: real, l1: real, l2: real, b: real, c: real, l: real)
    requires l1 != 0.0 && l2 != 0.0 && l1 != l2
    requires b * (l1 * l2 * (l1 - l2)) == num && c * (l1 * l2 * (l1 - l2)) == den
    requires 2.0 * den * l == -num
    ensures b + 2.0 * c * l == 0.0
  {
    var w := l1 * l2 * (l1 - l2);
    assert (b + 2.0 * c * l) * w == b * w + 2.0 * (c * w) * l;
    ZeroBySpan(b + 2.0 * c * l, l1, l2);
  }

  // ---------------------------------------------------------------------
  // "Cubic"
  // ---------------------------------------------------------------------

  /** The coefficients a and b of the cubic model
      phi(0) + phi'(0) l + b l^2 + a l^3 that also matches both samples:
      the solution of the 2x2 system of the "Cubic" interpolation type,
      written with the curvatures t1, t2 of the two samples. */
  function CubicA(phi0: real, s: real, l1: real, p1: real, l2: real, p2: real): (a: real)
    requires l1 != 0.0 && l2 != 0.0 && l1 != l2
    ensures a * (l1 - l2) == Curvature(phi0, s, l1, p1) - Curvature(phi0, s, l2, p2)
  {
    var t1 := Curvature(phi0, s, l1, p1);
    var t2 := Curvature(phi0, s, l2, p2);
    var a := (t1 - t2) / (l1 - l2);
    DivMulEq(a, t1 - t2, l1 - l2);
    a
  }

  function CubicB(phi0: real, s: real, l1: real, p1: real, l2: real, p2: real): (b: real)
    requires l1 != 0.0 && l2 != 0.0 && l1 != l2
    ensures b * (l1 - l2) == l1 * Curvature(phi0, s, l2, p2) - l2 * Curvature(phi0, s, l1, p1)
  {
    var t1 := Curvature(phi0, s, l1, p1);
    var t2 := Curvature(phi0, s, l2, p2);
    var b := (l1 * t2 - l2 * t1) / (l1 - l2);
    DivMulEq(b, l1 * t2 - l2 * t1, l1 - l2);
    b
  }

  /** The cubic built from CubicA and CubicB matches phi(0), phi'(0) and
      both samples. */
  lemma CubicModelInterpolates(phi0: real, s: real, l1: real, p1: real, l2: real, p2: real)
    requires l1 != 0.0 && l2 != 0.0 && l1 != l2
    ensures var a := CubicA(phi0, s, l1, p1, l2, p2);
            var b := CubicB(phi0, s, l1, p1, l2, p2);
            && CubicModel(phi0, s, b, a, 0.0) == phi0
            && CubicModel(phi0, s, b, a, l1) == p1
            && CubicModel(phi0, s, b, a, l2) == p2
  {
    CubicFit(phi0, s, l1, l2, p1, p2, Curvature(phi0, s, l1, p1), Curvature(phi0, s, l2, p2),
             CubicA(phi0, s, l1, p1, l2, p2), CubicB(phi0, s, l1, p1, l2, p2));
  }

  /** The division-free core of CubicModelInterpolates. */
  lemma CubicFit(phi0: real, s: real, l1: real, l2: real, p1: real, p2: real,
                 t1: real, t2: real, a: real, b: real)
    requires l1 != l2
    requires t1 * (l1 * l1) == p1 - phi0 - s * l1
    requires t2 * (l2 * l2) == p2 - phi0 - s * l2
    requires a * (l1 - l2) == t1 - t2
    requires b * (l1 - l2) == l1 * t2 - l2 * t1
    ensures CubicModel(phi0, s, b, a, l1) == p1
    ensures CubicModel(phi0, s, b, a, l2) == p2
  {
    var g := l1 - l2;
    assert (a * l1 + b) * g == t1 * g by {
      assert (a * l1 + b) * g == (a * g) * l1 + b * g;
    }
    CancelNonzero(a * l1 + b, t1, g);
    assert (a * l2 + b) * g == t2 * g by {
      assert (a * l2 + b) * g == (a * g) * l2 + b * g;
    }
    CancelNonzero(a * l2 + b, t2, g);
    CubicFactor(phi0, s, b, a, l1);
    CubicFactor(phi0, s, b, a, l2);
  }

  lemma CubicFactor(phi0: real, s: real, b: real, a: real, l: real)
    ensures CubicModel(phi0, s, b, a, l) == phi0 + s * l + (a * l + b) * (l * l)
  {
    assert b * l * l == b * (l * l);
    assert a * l * l * l == (a * l) * (l * l);
  }

  /** "Cubic" for k >= 2: (-b + sqrt(b^2 - 3 a phi'(0))) / (3 a), from the
      coefficients (a, b) of the cubic model. The square root is supplied
      by the caller. Undefined when the discriminant is negative or a is
      zero. */
  function CubicStep(a: real, b: real, s: real, sqrt: real -> real): (r: Option<real>)
    ensures r.Some? <==> a != 0.0 && b * b - 3.0 * a * s >= 0.0
    ensures r.Some? ==> 3.0 * a * r.value == -b + sqrt(b * b - 3.0 * a * s)
  {
    var disc := b * b - 3.0 * a * s;
    if disc < 0.0 || a == 0.0 then None
    else
      var l := (-b + sqrt(disc)) / (3.0 * a);
      DivMulEq(l, -b + sqrt(disc), 3.0 * a);
      Some(l)
  }

  /** With q the non-negative square root of the discriminant, every l
      satisfying the relation of CubicStep is a critical point of the cubic
      model phi0 + s l + b l^2 + a l^3 with non-negative curvature 2q there.
      For a positive discriminant the curvature is positive and l is the
      model's local minimizer; for a zero discriminant l is an inflection
      point of the model. */
  lemma CubicModelCritical(a: real, b: real, s: real, q: real, l: real)
    requires a != 0.0 && q >= 0.0 && q * q == b * b - 3.0 * a * s
    requires 3.0 * a * l == -b + q
    ensures 3.0 * a * l * l + 2.0 * b * l + s == 0.0
    ensures 6.0 * a * l + 2.0 * b == 2.0 * q
    ensures 6.0 * a * l + 2.0 * b >= 0.0
    ensures q > 0.0 ==> 6.0 * a * l + 2.0 * b > 0.0
  {
    var m := 3.0 * a * l;
    var e := 3.0 * a * l * l + 2.0 * b * l + s;
    assert e * (3.0 * a) == m * m + 2.0 * b * m + 3.0 * a * s;
    assert m * m + 2.0 * b * m == q * q - b * b;
    CancelNonzero(e, 0.0, 3.0 * a);
  }

  /** On a merit that is exactly quadratic along the direction (a linear
      residual, say), every pair of samples yields a zero leading cubic
      coefficient, so the cubic formula has no step. */
  lemma CubicDegenerateOnQuadratic(phi0: real, s: real, c: real, l1: real, l2: real, sqrt: real -> real)
    requires l1 != 0.0 && l2 != 0.0 && l1 != l2
    ensures CubicA(phi0, s, l1, Quad(phi0, s, c, l1), l2, Quad(phi0, s, c, l2)) == 0.0
    ensures CubicStep(CubicA(phi0, s, l1, Quad(phi0, s, c, l1), l2, Quad(phi0, s, c, l2)),
                      CubicB(phi0, s, l1, Quad(phi0, s, c, l1), l2, Quad(phi0, s, c, l2)), s, sqrt).None?
  {
    var p1, p2 := Quad(phi0, s, c, l1), Quad(phi0, s, c, l2);
    QuadCurvature(phi0, s, c, l1);
    QuadCurvature(phi0, s, c, l2);
    var a := CubicA(phi0, s, l1, p1, l2, p2);
    assert a * (l1 - l2) == 0.0;
    ZeroFactor(a, l1 - l2);
  }

  /** The curvature of a sample of a quadratic is its leading coefficient. */
  lemma QuadCurvature(phi0: real, s: real, c: real, l: real)
    requires l != 0.0
    ensures Curvature(phi0, s, l, Quad(phi0, s, c, l)) == c
  {
    var c1 := Curvature(phi0, s, l, Quad(phi0, s, c, l));
    assert (c1 - c) * (l * l) == 0.0;
    ZeroBySquare(c1 - c, l);
  }

  // ---------------------------------------------------------------------
  // Arithmetic helpers
  // ---------------------------------------------------------------------

  lemma DivMulEq(t: real, x: real, y: real)
    requires y != 0.0 && t == x / y
    ensures t * y == x
  {
  }

  lemma DivSquare(t: real, e: real, x: real)
    requires x != 0.0
    requires t == e / (x * x)
    ensures t * (x * x) == e
  {
  }

  lemma DivSpan(t: real, e: real, l1: real, l2: real)
    requires l1 != 0.0 && l2 != 0.0 && l1 != l2
    requires t == e / (l1 * l2 * (l1 - l2))
    ensures t * (l1 * l2 * (l1 - l2)) == e
  {
  }

  lemma ZeroFactor(x: real, k: real)
    requires k != 0.0 && x * k == 0.0
    ensures x == 0.0
  {
  }

  lemma ZeroBySquare(x: real, l: real)
    requires l != 0.0 && x * (l * l) == 0.0
    ensures x == 0.0
  {
    assert (x * l) * l == 0.0;
    ZeroFactor(x * l, l);
    ZeroFactor(x, l);
  }

  lemma ZeroBySpan(x: real, l1: real, l2: real)
    requires l1 != 0.0 && l2 != 0.0 && l1 != l2 && x * (l1 * l2 * (l1 - l2)) == 0.0
    ensures x == 0.0
  {
    var g := l1 - l2;
    assert ((x * l1) * l2) * g == 0.0;
    ZeroFactor((x * l1) * l2, g);
    ZeroFactor(x * l1, l2);
    ZeroFactor(x, l1);
  }

  lemma CancelNonzero(x: real, y: real, k: real)
    requires k != 0.0 && x * k == y * k
    ensures x == y
  {
    assert (x - y) * k == 0.0;
  }

  /** Expanding a quadratic about the point where its slope is zero. */
  lemma QuadGap(phi0: real, b: real, c: real, l: real, y: real)
    requires b + 2.0 * c * l == 0.0
    ensures Quad(phi0, b, c, y) - Quad(phi0, b, c, l) == c * (y - l) * (y - l)
  {
    assert b == -2.0 * c * l;
    calc {
      Quad(phi0, b, c, y) - Quad(phi0, b, c, l);
      b * y + c * y * y - b * l - c * l * l;
      -2.0 * c * l * y + c * y * y + 2.0 * c * l * l - c * l * l;
      c * (y * y - 2.0 * l * y + l * l);
      c * (y - l) * (y - l);
    }
  }

  /** A convex quadratic is smallest where its slope is zero. */
  lemma VertexIsMinimum(phi0: real, b: real, c: real, l: real)
    requires c > 0.0 && b + 2.0 * c * l == 0.0
    ensures forall y :: Quad(phi0, b, c, y) >= Quad(phi0, b, c, l)
  {
    forall y ensures Quad(phi0, b, c, y) >= Quad(phi0, b, c, l) {
      QuadGap(phi0, b, c, l, y);
      assert (y - l) * (y - l) >= 0.0;
      assert c * (y - l) * (y - l) == c * ((y - l) * (y - l));
    }
  }

  // ---------------------------------------------------------------------
  // Bounds and dispatch
  // ---------------------------------------------------------------------

  /** Enforces gamma_min lambda_{k-1} <= lambda_k <= gamma_max lambda_{k-1}:
      first the lower bound, then the upper one. */
  function Clamp(step: real, prevStep: real, minBoundFactor: real, maxBoundFactor: real): (r: real)
    ensures minBoundFactor * prevStep <= maxBoundFactor * prevStep ==>
              minBoundFactor * prevStep <= r <= maxBoundFactor * prevStep
    ensures minBoundFactor * prevStep <= step <= maxBoundFactor * prevStep ==> r == step
    ensures step < minBoundFactor * prevStep ==> r == minBoundFactor * prevStep
    ensures minBoundFactor * prevStep <= step && maxBoundFactor * prevStep < step ==> r == maxBoundFactor * prevStep
  {
    var lo, hi := minBoundFactor * prevStep, maxBoundFactor * prevStep;
    if step < lo then lo
    else if step > hi then hi
    else step
  }

  /** Of all steps within the bounds, the clamped one is nearest to the
      step the model predicted. */
  lemma ClampIsNearest(step: real, prevStep: real, minBoundFactor: real, maxBoundFactor: real, y: real)
    requires minBoundFactor * prevStep <= y <= maxBoundFactor * prevStep
    ensures var r := Clamp(step, prevStep, minBoundFactor, maxBoundFactor);
            (if r >= step then r - step else step - r) <= (if y >= step then y - step else step - y)
  {
  }

  /** The step predicted for inner iteration k >= 1 from the latest sample
      cur = (lambda_{k-1}, phi(lambda_{k-1})) and the one before,
      prev = (lambda_{k-2}, phi(lambda_{k-2})), before bounds are applied.
      "Cubic" uses the quadratic formula for lambda_1; "Quadratic3" takes
      lambda_1 = lambda_0 / 2. */
  function Predict(p: Params, k: int, phi0: real, s: real, cur: Point, prev: Point,
                   sqrt: real -> real): (r: Option<real>)
    ensures k == 1 && p.interpolationType == Quadratic3 ==> r == Some(cur.step / 2.0)
    ensures (k == 1 || p.interpolationType == Quadratic) && p.interpolationType != Quadratic3 ==>
              r == QuadraticStep(phi0, s, cur.step, cur.phi)
    ensures k != 1 && p.interpolationType == Quadratic3 ==>
              r == Quadratic3Step(phi0, cur.step, cur.phi, prev.step, prev.phi)
    ensures k != 1 && p.interpolationType == Cubic ==>
              r == if cur.step == 0.0 || prev.step == 0.0 || cur.step == prev.step then None
                   else CubicStep(CubicA(phi0, s, cur.step, cur.phi, prev.step, prev.phi),
                                  CubicB(phi0, s, cur.step, cur.phi, prev.step, prev.phi), s, sqrt)
  {
    match p.interpolationType
    case Quadratic3 =>
      if k == 1 then Some(0.5 * cur.step) else Quadratic3Step(phi0, cur.step, cur.phi, prev.step, prev.phi)
    case Quadratic => QuadraticStep(phi0, s, cur.step, cur.phi)
    case Cubic =>
      if k == 1 then QuadraticStep(phi0, s, cur.step, cur.phi)
      else if cur.step == 0.0 || prev.step == 0.0 || cur.step == prev.step then None
      else
        CubicStep(CubicA(phi0, s, cur.step, cur.phi, prev.step, prev.phi),
                  CubicB(phi0, s, cur.step, cur.phi, prev.step, prev.phi), s, sqrt)
  }

  /** Two equal trial steps leave the cubic fit undetermined (its matrix
      divides by lambda_{k-1} - lambda_{k-2}), so "Cubic" has no step. With
      gamma_min = gamma_max = 1 every refinement equals the step before it. */
  lemma ScenarioCubicEqualSteps(sqrt: real -> real)
    ensures Predict(Defaults(), 2, 10.0, -2.0, Point(1.0, 11.0), Point(1.0, 11.0), sqrt) == None
  {
  }

  /** phi(0) = 10, phi'(0) = -2, phi(1) = 11: the quadratic step is
      2 / (2 * 3) = 1/3, which the default bounds [0.1, 0.5] leave alone. */
  lemma ScenarioQuadraticOneThird()
    ensures QuadraticStep(10.0, -2.0, 1.0, 11.0) == Some(1.0 / 3.0)
    ensures Clamp(1.0 / 3.0, 1.0, 0.1, 0.5) == 1.0 / 3.0
  {
  }
}

=== FILE: search.dfy ===
/** The inner iterations of one call of the line search, as a function of
    the configuration and of the problem: the sequence of trial steps it
    evaluates, why it stops, and the step it returns. The imperative driver
    (module Driver) is proved to compute exactly this. */
module Search {
  import opened Config
  import opened Vectors
  import opened Acceptance
  import opened Interpolation

  /** Everything one call of compute sees besides the configuration: the
      current iterate x_old, the direction d, the merit function and the
      norm (collaborators), the slope phi'(0) the slope utility computed,
      the forcing term eta of the direction, the index of the nonlinear
      iteration and the square root used by the cubic formula. */
  datatype Problem = Problem(
    xOld: seq<real>,
    dir: seq<real>,
    merit: seq<real> -> real,
    norm: seq<real> -> real,
    oldSlope: real,
    eta: real,
    nNonlinearIters: int,
    sqrt: real -> real)

  predicate Wf(pr: Problem) {
    |pr.xOld| == |pr.dir|
  }

  /** phi(lambda) = merit(x_old + lambda d). */
  function Phi(pr: Problem, step: real): real
    requires Wf(pr)
  {
    pr.merit(Axpy(pr.xOld, step, pr.dir))
  }

  /** The decrease measure at x_old + lambda d. */
  function Value(p: Params, pr: Problem, step: real): real
    requires Wf(pr)
  {
    ComputeValue(p, pr.norm, Axpy(pr.xOld, step, pr.dir), Phi(pr, step))
  }

  function OldPhi(pr: Problem): real {
    pr.merit(pr.xOld)
  }

  function OldValue(p: Params, pr: Problem): real {
    ComputeValue(p, pr.norm, pr.xOld, OldPhi(pr))
  }

  /** The acceptance test of the trial step evaluated as inner iteration
      nIters. */
  predicate Accepts(p: Params, pr: Problem, step: real, nIters: int)
    requires Wf(pr)
  {
    CheckConvergence(p, Value(p, pr, step), OldValue(p, pr), pr.oldSlope, step, pr.eta,
                     nIters, pr.nNonlinearIters)
  }

  /** Why the inner iterations stopped. */
  datatype Reason = Accepted | MaxItersExceeded | StepBelowMinimum | PredictorFailure

  /** The outcome of the inner iterations: the reason, the last step
      computed, the number of inner iterations and the trial steps
      evaluated, in order (trials[i] is evaluated as inner iteration i + 1). */
  datatype Exit = Exit(reason: Reason, lastStep: real, nIters: nat, trials: seq<real>)

  /** The inner iterations after nIters rejected trials, the last of which
      is cur and the one before prev. */
  function Iterate(p: Params, pr: Problem, nIters: nat, cur: Point, prev: Point, trials: seq<real>): Exit
    requires Wf(pr)
    decreases p.maxIters + 1 - nIters
  {
    if nIters > p.maxIters then Exit(MaxItersExceeded, cur.step, nIters, trials)
    else
      match Predict(p, nIters, OldPhi(pr), pr.oldSlope, cur, prev, pr.sqrt)
      case None => Exit(PredictorFailure, cur.step, nIters, trials)
      case Some(t) =>
        var step := Clamp(t, cur.step, p.minBoundFactor, p.maxBoundFactor);
        if step < p.minStep then Exit(StepBelowMinimum, step, nIters, trials)
        else if Accepts(p, pr, step, nIters + 1) then Exit(Accepted, step, nIters + 1, trials + [step])
        else Iterate(p, pr, nIters + 1, Point(step, Phi(pr, step)), cur, trials + [step])
  }

  /** The whole search: the default step first, as inner iteration 1, then
      the refinements. */
  function Run(p: Params, pr: Problem): Exit
    requires Wf(pr)
  {
    var s0 := p.defaultStep;
    if Accepts(p, pr, s0, 1) then Exit(Accepted, s0, 1, [s0])
    else Iterate(p, pr, 1, Point(s0, Phi(pr, s0)), Point(0.0, 0.0), [s0])
  }

  /** The step compute returns: the accepted one, or on failure the
      recovery step chosen by "Recovery Step Type". */
  function ReturnedStep(p: Params, e: Exit): real {
    if e.reason == Accepted then e.lastStep
    else if p.recoveryStepType == Constant then p.recoveryStep
    else e.lastStep
  }

  /** A search is non-trivial when the default step is not accepted as it
      stands. */
  predicate NonTrivial(p: Params, pr: Problem)
    requires Wf(pr)
  {
    !Accepts(p, pr, p.defaultStep, 1)
  }

  /** Every trial after the first lies within the bounds set by the one
      before it. */
  predicate Bounded(p: Params, trials: seq<real>) {
    forall i :: 1 <= i < |trials| ==> Within(p, trials[i - 1], trials[i])
  }

  /** gamma_min lambda_{k-1} <= lambda_k <= gamma_max lambda_{k-1}. */
  predicate Within(p: Params, prevStep: real, step: real) {
    p.minBoundFactor * prevStep <= step <= p.maxBoundFactor * prevStep
  }

  predicate NonNegative(trials: seq<real>) {
    forall i :: 0 <= i < |trials| ==> trials[i] >= 0.0
  }

  predicate Positive(trials: seq<real>) {
    forall i :: 0 <= i < |trials| ==> trials[i] > 0.0
  }

  predicate NonIncreasing(trials: seq<real>) {
    forall i :: 1 <= i < |trials| ==> trials[i] <= trials[i - 1]
  }

  /** Every trial in the sequence was rejected by the acceptance test. */
  predicate AllRejected(p: Params, pr: Problem, trials: seq<real>)
    requires Wf(pr)
  {
    forall i :: 0 <= i < |trials| ==> !Accepts(p, pr, trials[i], i + 1)
  }

  // ---------------------------------------------------------------------
  // Properties of Iterate, by induction on the remaining iterations
  // ---------------------------------------------------------------------

  lemma {:induction false} IterateShape(p: Params, pr: Problem, n: nat, cur: Point, prev: Point, trials: seq<real>)
    requires Wf(pr) && n >= 1 && |trials| == n && trials[n - 1] == cur.step
    ensures var e := Iterate(p, pr, n, cur, prev, trials);
            && |e.trials| == e.nIters >= n
            && e.trials[..n] == trials
            && (e.reason != StepBelowMinimum ==> e.lastStep == e.trials[|e.trials| - 1])
            && (e.reason == Accepted ==> e.nIters > n)
    decreases p.maxIters + 1 - n
  {
    if n <= p.maxIters {
      var t := Predict(p, n, OldPhi(pr), pr.oldSlope, cur, prev, pr.sqrt);
      if t.Some? {
        var step := Clamp(t.value, cur.step, p.minBoundFactor, p.maxBoundFactor);
        if step >= p.minStep && !Accepts(p, pr, step, n + 1) {
          IterateShape(p, pr, n + 1, Point(step, Phi(pr, step)), cur, trials + [step]);
          var e := Iterate(p, pr, n + 1, Point(step, Phi(pr, step)), cur, trials + [step]);
          assert e.trials[..n] == (e.trials[..n + 1])[..n];
        }
      }
    }
  }

  lemma {:induction false} IterateBounded(p: Params, pr: Problem, n: nat, cur: Point, prev: Point, trials: seq<real>)
    requires Wf(pr) && Valid(p) && p.minBoundFactor >= 0.0
    requires |trials| >= 1 && trials[|trials| - 1] == cur.step
    requires Bounded(p, trials) && NonNegative(trials)
    ensures var e := Iterate(p, pr, n, cur, prev, trials);
            Bounded(p, e.trials) && NonNegative(e.trials)
    decreases p.maxIters + 1 - n
  {
    if n <= p.maxIters {
      var t := Predict(p, n, OldPhi(pr), pr.oldSlope, cur, prev, pr.sqrt);
      if t.Some? {
        var step := Clamp(t.value, cur.step, p.minBoundFactor, p.maxBoundFactor);
        assert cur.step >= 0.0;
        ClampWithin(p, t.value, cur.step);
        var next := trials + [step];
        ExtendBounded(p, trials, step);
        if step >= p.minStep && !Accepts(p, pr, step, n + 1) {
          IterateBounded(p, pr, n + 1, Point(step, Phi(pr, step)), cur, next);
        }
      }
    }
  }

  /** Clamping with 0 <= gamma_min <= gamma_max from a non-negative step
      lands in the (non-empty) bounds interval. */
  lemma ClampWithin(p: Params, step: real, prevStep: real)
    requires 0.0 <= p.minBoundFactor <= p.maxBoundFactor && prevStep >= 0.0
    ensures var r := Clamp(step, prevStep, p.minBoundFactor, p.maxBoundFactor);
            Within(p, prevStep, r) && r >= 0.0
  {
    FactorsOrdered(p.minBoundFactor, p.maxBoundFactor, prevStep);
  }

  lemma ExtendBounded(p: Params, trials: seq<real>, step: real)
    requires |trials| >= 1 && Bounded(p, trials) && NonNegative(trials)
    requires Within(p, trials[|trials| - 1], step) && step >= 0.0
    ensures Bounded(p, trials + [step]) && NonNegative(trials + [step])
  {
    var next := trials + [step];
    forall i | 1 <= i < |next| ensures Within(p, next[i - 1], next[i]) {
      if i < |trials| {
        assert next[i - 1] == trials[i - 1] && next[i] == trials[i];
      } else {
        assert next[i - 1] == trials[|trials| - 1] && next[i] == step;
      }
    }
    forall i | 0 <= i < |next| ensures next[i] >= 0.0 {
      if i < |trials| {
        assert next[i] == trials[i];
      }
    }
  }

  /** With lambda_{k-1} >= 0 and 0 <= gamma_min <= gamma_max, the bounds
      interval is non-empty and starts at a non-negative step. */
  lemma FactorsOrdered(minBoundFactor: real, maxBoundFactor: real, prevStep: real)
    requires 0.0 <= minBoundFactor <= maxBoundFactor && prevStep >= 0.0
    ensures 0.0 <= minBoundFactor * prevStep <= maxBoundFactor * prevStep
  {
    assert maxBoundFactor * prevStep - minBoundFactor * prevStep == (maxBoundFactor - minBoundFactor) * prevStep;
  }

  lemma {:induction false} IterateRejections(p: Params, pr: Problem, n: nat, cur: Point, prev: Point, trials: seq<real>)
    requires Wf(pr) && |trials| == n && AllRejected(p, pr, trials)
    ensures var e := Iterate(p, pr, n, cur, prev, trials);
            && (e.reason != Accepted ==> AllRejected(p, pr, e.trials))
            && (e.reason == Accepted ==>
                  && |e.trials| == e.nIters >= 1
                  && Accepts(p, pr, e.lastStep, e.nIters)
                  && AllRejected(p, pr, e.trials[..e.nIters - 1]))
    decreases p.maxIters + 1 - n
  {
    if n <= p.maxIters {
      var t := Predict(p, n, OldPhi(pr), pr.oldSlope, cur, prev, pr.sqrt);
      if t.Some? {
        var step := Clamp(t.value, cur.step, p.minBoundFactor, p.maxBoundFactor);
        var next := trials + [step];
        if step >= p.minStep {
          if Accepts(p, pr, step, n + 1) {
            assert next[..n] == trials;
          } else {
            assert AllRejected(p, pr, next) by {
              assert next[n] == step;
            }
            IterateRejections(p, pr, n + 1, Point(step, Phi(pr, step)), cur, next);
          }
        }
      }
    }
  }

  lemma {:induction false} IterateLimits(p: Params, pr: Problem, n: nat, cur: Point, prev: Point, trials: seq<real>)
    requires Wf(pr) && |trials| == n
    ensures var e := Iterate(p, pr, n, cur, prev, trials);
            && (e.reason == MaxItersExceeded ==> e.nIters > p.maxIters)
            && (e.nIters <= p.maxIters + 1 || e.nIters == n)
            && (e.reason == StepBelowMinimum ==> e.lastStep < p.minStep)
            && (forall i :: n <= i < |e.trials| ==> e.trials[i] >= p.minStep)
    decreases p.maxIters + 1 - n
  {
    if n <= p.maxIters {
      var t := Predict(p, n, OldPhi(pr), pr.oldSlope, cur, prev, pr.sqrt);
      if t.Some? {
        var step := Clamp(t.value, cur.step, p.minBoundFactor, p.maxBoundFactor);
        if step >= p.minStep && !Accepts(p, pr, step, n + 1) {
          IterateLimits(p, pr, n + 1, Point(step, Phi(pr, step)), cur, trials + [step]);
          IterateShape0(p, pr, n + 1, Point(step, Phi(pr, step)), cur, trials + [step]);
        }
      }
    }
  }

  /** Iterate only ever appends to the trials it is given. */
  lemma {:induction false} IterateShape0(p: Params, pr: Problem, n: nat, cur: Point, prev: Point, trials: seq<real>)
    requires Wf(pr)
    ensures var e := Iterate(p, pr, n, cur, prev, trials);
            |e.trials| >= |trials| && e.trials[..|trials|] == trials
    decreases p.maxIters + 1 - n
  {
    if n <= p.maxIters {
      var t := Predict(p, n, OldPhi(pr), pr.oldSlope, cur, prev, pr.sqrt);
      if t.Some? {
        var step := Clamp(t.value, cur.step, p.minBoundFactor, p.maxBoundFactor);
        if step >= p.minStep && !Accepts(p, pr, step, n + 1) {
          IterateShape0(p, pr, n + 1, Point(step, Phi(pr, step)), cur, trials + [step]);
          var e := Iterate(p, pr, n + 1, Point(step, Phi(pr, step)), cur, trials + [step]);
          assert e.trials[..|trials|] == (e.trials[..|trials| + 1])[..|trials|];
        }
      }
    }
  }

  // ---------------------------------------------------------------------
  // Properties of the whole search
  // ---------------------------------------------------------------------

  /** The first trial is always the default step; the number of inner
      iterations is the number of trials evaluated, at most Max Iters + 1
      (the default step and at most Max Iters refinements), and exceeding
      it is the only way to stop with MaxItersExceeded. */
  lemma SearchShape(p: Params, pr: Problem)
    requires Wf(pr)
    ensures var e := Run(p, pr);
            && |e.trials| == e.nIters >= 1
            && e.trials[0] == p.defaultStep
            && (e.reason != StepBelowMinimum ==> e.lastStep == e.trials[e.nIters - 1])
            && (e.nIters <= p.maxIters + 1 || e.nIters == 1)
            && (e.reason == MaxItersExceeded ==> e.nIters > p.maxIters)
  {
    var s0 := p.defaultStep;
    if !Accepts(p, pr, s0, 1) {
      IterateShape(p, pr, 1, Point(s0, Phi(pr, s0)), Point(0.0, 0.0), [s0]);
      IterateLimits(p, pr, 1, Point(s0, Phi(pr, s0)), Point(0.0, 0.0), [s0]);
      var e := Run(p, pr);
      assert e.trials[0] == e.trials[..1][0];
    }
  }

  /** Stopping for a too small step is reported with that step, and every
      refinement that was evaluated was at least Minimum Step. */
  lemma SearchMinimumStep(p: Params, pr: Problem)
    requires Wf(pr)
    ensures var e := Run(p, pr);
            && (e.reason == StepBelowMinimum ==> e.lastStep < p.minStep)
            && (forall i :: 1 <= i < |e.trials| ==> e.trials[i] >= p.minStep)
  {
    var s0 := p.defaultStep;
    if !Accepts(p, pr, s0, 1) {
      IterateLimits(p, pr, 1, Point(s0, Phi(pr, s0)), Point(0.0, 0.0), [s0]);
    }
  }

  /** A successful search stops at the first trial the acceptance test
      accepts; a failed one evaluated only rejected trials. */
  lemma SearchOutcome(p: Params, pr: Problem)
    requires Wf(pr)
    ensures var e := Run(p, pr);
            && |e.trials| == e.nIters >= 1
            && (e.reason == Accepted ==>
                  && Accepts(p, pr, e.lastStep, e.nIters)
                  && e.lastStep == e.trials[e.nIters - 1]
                  && AllRejected(p, pr, e.trials[..e.nIters - 1]))
            && (e.reason != Accepted ==> AllRejected(p, pr, e.trials))
  {
    var s0 := p.defaultStep;
    SearchShape(p, pr);
    if !Accepts(p, pr, s0, 1) {
      assert AllRejected(p, pr, [s0]);
      IterateRejections(p, pr, 1, Point(s0, Phi(pr, s0)), Point(0.0, 0.0), [s0]);
    } else {
      assert Run(p, pr).trials[..0] == [];
    }
  }

  /** With "Force Interpolation" the default step is never accepted as it
      stands: a successful search evaluated at least one refinement. */
  lemma ForcedInterpolation(p: Params, pr: Problem)
    requires Wf(pr) && p.doForceInterpolation
    ensures var e := Run(p, pr);
            NonTrivial(p, pr) && (e.reason == Accepted ==> e.nIters >= 2)
  {
    var s0 := p.defaultStep;
    IterateShape(p, pr, 1, Point(s0, Phi(pr, s0)), Point(0.0, 0.0), [s0]);
  }

  /** A search is non-trivial exactly when it does not stop with the default
      step accepted; a successful non-trivial search evaluated at least one
      refinement, and one that evaluated a refinement is non-trivial. */
  lemma NonTrivialCharacterization(p: Params, pr: Problem)
    requires Wf(pr)
    ensures var e := Run(p, pr);
            && (NonTrivial(p, pr) <==> !(e.reason == Accepted && e.nIters == 1))
            && (NonTrivial(p, pr) && e.reason == Accepted ==> |e.trials| >= 2)
            && (|e.trials| >= 2 ==> NonTrivial(p, pr))
  {
    var s0 := p.defaultStep;
    SearchShape(p, pr);
    if NonTrivial(p, pr) {
      IterateShape(p, pr, 1, Point(s0, Phi(pr, s0)), Point(0.0, 0.0), [s0]);
    }
  }

  /** With 0 <= gamma_min <= gamma_max and a non-negative default step,
      every refinement lies within [gamma_min lambda_{k-1}, gamma_max lambda_{k-1}]. */
  lemma SearchBounded(p: Params, pr: Problem)
    requires Wf(pr) && Valid(p) && p.minBoundFactor >= 0.0 && p.defaultStep >= 0.0
    ensures var e := Run(p, pr);
            Bounded(p, e.trials) && NonNegative(e.trials)
  {
    var s0 := p.defaultStep;
    if !Accepts(p, pr, s0, 1) {
      IterateBounded(p, pr, 1, Point(s0, Phi(pr, s0)), Point(0.0, 0.0), [s0]);
    }
  }

  /** With gamma_min > 0 and a positive default step, every trial and the
      last computed step are strictly positive. */
  lemma {:induction false} SearchPositive(p: Params, pr: Problem)
    requires Wf(pr) && Valid(p) && p.minBoundFactor > 0.0 && p.defaultStep > 0.0
    ensures var e := Run(p, pr);
            Positive(e.trials) && e.lastStep > 0.0
  {
    SearchBounded(p, pr);
    SearchShape(p, pr);
    var e := Run(p, pr);
    forall i | 0 <= i < |e.trials| ensures e.trials[i] > 0.0 {
      PositiveChain(p, e.trials, i);
    }
    if e.reason == StepBelowMinimum {
      StepBelowMinimumPositive(p, pr);
    }
  }

  lemma {:induction false} PositiveChain(p: Params, trials: seq<real>, i: nat)
    requires p.minBoundFactor > 0.0 && |trials| > i && trials[0] > 0.0 && Bounded(p, trials)
    ensures trials[i] > 0.0
  {
    if i > 0 {
      PositiveChain(p, trials, i - 1);
      var q := trials[i - 1];
      assert Within(p, q, trials[i]);
      assert p.minBoundFactor * q <= trials[i];
      ProductPositive(p.minBoundFactor, q);
    }
  }

  lemma ProductPositive(x: real, y: real)
    requires x > 0.0 && y > 0.0
    ensures x * y > 0.0
  {
  }

  /** A step rejected for being below Minimum Step was still clamped from
      below by gamma_min times a positive trial. */
  lemma StepBelowMinimumPositive(p: Params, pr: Problem)
    requires Wf(pr) && Valid(p) && p.minBoundFactor > 0.0 && p.defaultStep > 0.0
    requires Run(p, pr).reason == StepBelowMinimum
    ensures Run(p, pr).lastStep > 0.0
  {
    var s0 := p.defaultStep;
    SearchBounded(p, pr);
    SearchPositiveTrials(p, pr);
    IterateBelowMinimum(p, pr, 1, Point(s0, Phi(pr, s0)), Point(0.0, 0.0), [s0]);
  }

  lemma SearchPositiveTrials(p: Params, pr: Problem)
    requires Wf(pr) && Valid(p) && p.minBoundFactor > 0.0 && p.defaultStep > 0.0
    ensures Positive(Run(p, pr).trials)
  {
    SearchBounded(p, pr);
    SearchShape(p, pr);
    var e := Run(p, pr);
    forall i | 0 <= i < |e.trials| ensures e.trials[i] > 0.0 {
      PositiveChain(p, e.trials, i);
    }
  }

  /** When Iterate stops for a too small step, that step is at least
      gamma_min times the last trial. */
  lemma {:induction false} IterateBelowMinimum(p: Params, pr: Problem, n: nat, cur: Point, prev: Point, trials: seq<real>)
    requires Wf(pr) && Valid(p) && p.minBoundFactor > 0.0
    requires |trials| >= 1 && trials[|trials| - 1] == cur.step
    requires Positive(Iterate(p, pr, n, cur, prev, trials).trials)
    requires Iterate(p, pr, n, cur, prev, trials).reason == StepBelowMinimum
    ensures Iterate(p, pr, n, cur, prev, trials).lastStep > 0.0
    decreases p.maxIters + 1 - n
  {
    var t := Predict(p, n, OldPhi(pr), pr.oldSlope, cur, prev, pr.sqrt);
    var step := Clamp(t.value, cur.step, p.minBoundFactor, p.maxBoundFactor);
    IterateShape0(p, pr, n, cur, prev, trials);
    var e := Iterate(p, pr, n, cur, prev, trials);
    assert cur.step == e.trials[|trials| - 1];
    assert cur.step > 0.0;
    if step < p.minStep {
      FactorsOrdered(p.minBoundFactor, p.maxBoundFactor, cur.step);
      ProductPositive(p.minBoundFactor, cur.step);
    } else {
      IterateBelowMinimum(p, pr, n + 1, Point(step, Phi(pr, step)), cur, trials + [step]);
    }
  }

  /** With gamma_max <= 1 the trials never grow, so no refinement exceeds
      the default step. */
  lemma SearchNonIncreasing(p: Params, pr: Problem)
    requires Wf(pr) && Valid(p) && p.minBoundFactor >= 0.0 && p.maxBoundFactor <= 1.0
    requires p.defaultStep >= 0.0
    ensures var e := Run(p, pr);
            NonIncreasing(e.trials)
  {
    SearchBounded(p, pr);
    var e := Run(p, pr);
    forall i | 1 <= i < |e.trials| ensures e.trials[i] <= e.trials[i - 1] {
      assert Within(p, e.trials[i - 1], e.trials[i]);
      assert e.trials[i - 1] >= 0.0;
      Shrinks(p, e.trials[i - 1], e.trials[i]);
    }
  }

  lemma Shrinks(p: Params, prevStep: real, step: real)
    requires p.maxBoundFactor <= 1.0 && prevStep >= 0.0 && Within(p, prevStep, step)
    ensures step <= prevStep
  {
    var m := p.maxBoundFactor;
    assert step <= m * prevStep;
    assert prevStep - m * prevStep == (1.0 - m) * prevStep;
  }

  /** The step returned on failure: the constant recovery step, or under
      "Last Computed Step" the last step the search computed, which is the
      last trial unless it was rejected for being below Minimum Step. */
  lemma RecoveryStep(p: Params, pr: Problem)
    requires Wf(pr)
    ensures var e := Run(p, pr);
            && |e.trials| >= 1
            && (e.reason == Accepted ==> ReturnedStep(p, e) == e.trials[|e.trials| - 1])
            && (e.reason != Accepted && p.recoveryStepType == Constant ==> ReturnedStep(p, e) == p.recoveryStep)
            && (e.reason != Accepted && p.recoveryStepType == LastComputedStep ==>
                  ReturnedStep(p, e) == e.trials[|e.trials| - 1]
                  || (e.reason == StepBelowMinimum && ReturnedStep(p, e) < p.minStep))
  {
    SearchShape(p, pr);
    SearchMinimumStep(p, pr);
  }

  /** The second trial, when there is one, is the first interpolation step
      clamped into the bounds: half the default step for "Quadratic3", the
      quadratic formula for "Quadratic" and "Cubic". */
  lemma {:induction false} SecondTrial(p: Params, pr: Problem)
    requires Wf(pr) && |Run(p, pr).trials| >= 2
    ensures var e := Run(p, pr);
            var s0 := p.defaultStep;
            && (p.interpolationType == Quadratic3 ==>
                  e.trials[1] == Clamp(s0 / 2.0, s0, p.minBoundFactor, p.maxBoundFactor))
            && (p.interpolationType != Quadratic3 ==>
                  var q := QuadraticStep(OldPhi(pr), pr.oldSlope, s0, Phi(pr, s0));
                  q.Some? && e.trials[1] == Clamp(q.value, s0, p.minBoundFactor, p.maxBoundFactor))
  {
    var s0 := p.defaultStep;
    var cur := Point(s0, Phi(pr, s0));
    var prev := Point(0.0, 0.0);
    assert !Accepts(p, pr, s0, 1);
    assert 1 <= p.maxIters;
    var t := Predict(p, 1, OldPhi(pr), pr.oldSlope, cur, prev, pr.sqrt);
    assert t.Some?;
    var step := Clamp(t.value, s0, p.minBoundFactor, p.maxBoundFactor);
    assert step >= p.minStep;
    assert [s0] + [step] == [s0, step];
    assert Run(p, pr) == Iterate(p, pr, 1, cur, prev, [s0]);
    if Accepts(p, pr, step, 2) {
      assert Run(p, pr) == Exit(Accepted, step, 2, [s0, step]);
    } else {
      assert Run(p, pr) == Iterate(p, pr, 2, Point(step, Phi(pr, step)), cur, [s0, step]);
      IterateShape0(p, pr, 2, Point(step, Phi(pr, step)), cur, [s0, step]);
      var e := Iterate(p, pr, 2, Point(step, Phi(pr, step)), cur, [s0, step]);
      assert e.trials[1] == e.trials[..2][1];
    }
  }
  // ---------------------------------------------------------------------
  // A worked instance
  // ---------------------------------------------------------------------

  /** phi(lambda) = 10 - 2 lambda + 3 lambda^2 along d = [1] from x = [0]. */
  function ScenarioMerit(x: seq<real>): real {
    if |x| == 1 then 10.0 - 2.0 * x[0] + 3.0 * x[0] * x[0] else 0.0
  }

  function ScenarioProblem(): Problem {
    Problem([0.0], [1.0], ScenarioMerit, ScenarioMerit, -2.0, 0.0, 0, (r: real) => r)
  }

  /** Under the defaults the full step (phi(1) = 11) is rejected, the
      quadratic model predicts 1/3, which lies within [0.1, 0.5], and
      phi(1/3) = 29/3 passes the Armijo-Goldstein test: the search succeeds
      in two inner iterations. */
  lemma ScenarioOneRefinement()
    ensures Run(Defaults(), ScenarioProblem()) == Exit(Accepted, 1.0 / 3.0, 2, [1.0, 1.0 / 3.0])
  {
    var p, pr := Defaults(), ScenarioProblem();
    assert Axpy([0.0], 1.0, [1.0]) == [1.0];
    assert Phi(pr, 1.0) == 11.0;
    assert !Accepts(p, pr, 1.0, 1);
    ScenarioQuadraticOneThird();
    assert Axpy([0.0], 1.0 / 3.0, [1.0]) == [1.0 / 3.0];
    assert Phi(pr, 1.0 / 3.0) == 29.0 / 3.0;
    assert Accepts(p, pr, 1.0 / 3.0, 2);
    assert [1.0] + [1.0 / 3.0] == [1.0, 1.0 / 3.0];
  }

  /** phi(lambda) = 10 - 2 lambda + 100 lambda^2 along d = [1] from x = [0]:
      a merit that is exactly quadratic along d, with a steep curvature. */
  function SteepMerit(x: seq<real>): real {
    if |x| == 1 then 10.0 - 2.0 * x[0] + 100.0 * x[0] * x[0] else 0.0
  }

  function SteepProblem(): Problem {
    Problem([0.0], [1.0], SteepMerit, SteepMerit, -2.0, 0.0, 0, (r: real) => r)
  }

  /** Under the defaults the full step (phi(1) = 108) is rejected, the
      quadratic model predicts 0.01, which the lower bound raises to 0.1,
      and phi(0.1) = 10.8 is rejected too. The cubic through both samples
      then has a zero leading coefficient, so the search fails with no
      predicted step after two inner iterations. */
  lemma ScenarioCubicFailsOnQuadratic()
    ensures Run(Defaults(), SteepProblem()) == Exit(PredictorFailure, 0.1, 2, [1.0, 0.1])
  {
    var p, pr := Defaults(), SteepProblem();
    assert Axpy([0.0], 1.0, [1.0]) == [1.0];
    assert Phi(pr, 1.0) == 108.0;
    assert !Accepts(p, pr, 1.0, 1);
    assert QuadraticStep(10.0, -2.0, 1.0, 108.0) == Some(0.01);
    assert Clamp(0.01, 1.0, 0.1, 0.5) == 0.1;
    assert Axpy([0.0], 0.1, [1.0]) == [0.1];
    assert Phi(pr, 0.1) == 10.8;
    assert !Accepts(p, pr, 0.1, 2);
    assert 108.0 == Quad(10.0, -2.0, 100.0, 1.0) && 10.8 == Quad(10.0, -2.0, 100.0, 0.1);
    CubicDegenerateOnQuadratic(10.0, -2.0, 100.0, 0.1, 1.0, pr.sqrt);
    assert Predict(p, 2, 10.0, -2.0, Point(0.1, 10.8), Point(1.0, 108.0), pr.sqrt) == None;
    assert [1.0] + [0.1] == [1.0, 0.1];
  }

  /** The defaults with "Max Iters" = 1 and "Quadratic" interpolation. */
  function OneIterParams(): (p: Params)
    ensures p.maxIters == 1 && p.interpolationType == Quadratic
  {
    Defaults().(maxIters := 1, interpolationType := Quadratic)
  }

  /** The "Max Iters" test comes before each refinement, so a refinement
      evaluated as inner iteration Max Iters + 1 can still be accepted: here
      the search succeeds at count 2 with Max Iters = 1. */
  lemma ScenarioAcceptedBeyondMaxIters()
    ensures Run(OneIterParams(), ScenarioProblem()) == Exit(Accepted, 1.0 / 3.0, 2, [1.0, 1.0 / 3.0])
  {
    var p, pr := OneIterParams(), ScenarioProblem();
    assert Axpy([0.0], 1.0, [1.0]) == [1.0];
    assert Phi(pr, 1.0) == 11.0;
    assert !Accepts(p, pr, 1.0, 1);
    ScenarioQuadraticOneThird();
    assert Axpy([0.0], 1.0 / 3.0, [1.0]) == [1.0 / 3.0];
    assert Phi(pr, 1.0 / 3.0) == 29.0 / 3.0;
    assert Accepts(p, pr, 1.0 / 3.0, 2);
    assert [1.0] + [1.0 / 3.0] == [1.0, 1.0 / 3.0];
  }

  /** The defaults with both bounds factors 1: every refinement is clamped
      to the step before it. */
  function FixedBoundsParams(): (p: Params)
    ensures Valid(p) && p.minBoundFactor == 1.0 && p.maxBoundFactor == 1.0
  {
    Defaults().(minBoundFactor := 1.0, maxBoundFactor := 1.0)
  }

  /** With both bounds factors 1 the first refinement repeats the full step,
      which is rejected again, and the cubic formula then has two equal
      steps and no prediction: the search fails at the second refinement. */
  lemma ScenarioFixedBoundsFail()
    ensures Run(FixedBoundsParams(), ScenarioProblem()) == Exit(PredictorFailure, 1.0, 2, [1.0, 1.0])
  {
    var p, pr := FixedBoundsParams(), ScenarioProblem();
    assert Axpy([0.0], 1.0, [1.0]) == [1.0];
    assert Phi(pr, 1.0) == 11.0;
    assert !Accepts(p, pr, 1.0, 1);
    ScenarioQuadraticOneThird();
    assert Clamp(1.0 / 3.0, 1.0, 1.0, 1.0) == 1.0;
    assert !Accepts(p, pr, 1.0, 2);
    assert Predict(p, 2, 10.0, -2.0, Point(1.0, 11.0), Point(1.0, 11.0), pr.sqrt) == None;
    assert [1.0] + [1.0] == [1.0, 1.0];
  }
}

=== FILE: vectors.dfy ===
/** The vector update behind updateGrp: x_new = x_old + lambda * d. */
module Vectors {

  /** x + a * d, element by element. */
  function Axpy(x: seq<real>, a: real, d: seq<real>): (r: seq<real>)
    requires |x| == |d|
    ensures |r| == |x|
    ensures forall i :: 0 <= i < |r| ==> r[i] == x[i] + a * d[i]
  {
    seq(|x|, i requires 0 <= i < |x| => x[i] + a * d[i])
  }

  /** A zero step leaves the iterate where it was. */
  lemma AxpyZero(x: seq<real>, d: seq<real>)
    requires |x| == |d|
    ensures Axpy(x, 0.0, d) == x
  {
  }

  /** Stepping back by the same amount along the same direction returns to
      the starting point. */
  lemma AxpyInverse(x: seq<real>, a: real, d: seq<real>)
    requires |x| == |d|
    ensures Axpy(Axpy(x, a, d), -a, d) == x
  {
    var y := Axpy(x, a, d);
    var z := Axpy(y, -a, d);
    forall i | 0 <= i < |x| ensures z[i] == x[i] {
      assert z[i] == (x[i] + a * d[i]) + (-a) * d[i];
    }
  }
}
